=== FILE: README.md ===
# Tube2LM channel listing, modelled in Dafny

Tube2LM lists the newest videos of a YouTube channel and writes their watch
URLs, and optionally their publish dates and ids, to a spreadsheet or a text
file. Ids already present in an earlier export can be excluded. A small web
front end runs each listing as a background task. Clients poll a task-keyed
progress store until the task reaches a terminal stage.

This project models the core of that system as pure Dafny functions and
proves properties about it:

- `Channel` (`modules/youtube/scraper.py`): rewriting a channel reference
  into its uploads listing (`_get_channel_upload_url`), and extracting the
  channel name used in file names (`_extract_channel_name`).
- `VideoIds`: pulling an 11-character video id out of a URL
  (`_extract_video_id_from_url`). The regular expression is modelled as a
  leftmost scan with the same alternatives in the same order.
- `Exclusion`: the exclusion set read from an earlier spreadsheet
  (`load_existing_videos`). The spreadsheet is an abstract table of headed
  columns. A missing or unreadable file yields the empty set.
- `Entries`: what one backend entry turns into. This covers the URL
  priority chain, the duplicate check, the publish-date fallback chain and
  its normalisation, and the recorded id.
- `Progress` and `Walk`: the stages and events of a listing, the heartbeat,
  and the entry walk of `scrape_channel` as a fold. The walk keeps items in
  order and emits interpolated `extracting` events under the every-fifth /
  last / first-ten rule.
- `Scrape`: `scrape_channel` end to end. The backend's answers (the primary
  call and the fallback call) are inputs, and so is the number of heartbeat
  ticks that fired while the call was outstanding.
- `Export`: the file name, the table and the text that `save_urls` writes.
- `Store` (`web_app.py`): the progress store (`update_progress`), the
  request check of `/api/scrape`, the background worker `scrape_task`,
  polling through `/api/progress/<task_id>`, and `allowed_file`.
- `Values` and `Text` are shared helpers. `Field` stands for a dictionary
  lookup that can find a missing key, a null value or a value. `Text` holds
  the Python string operations in use and a generic leftmost-match scan.

Clocks, the file system, the backend library and date parsing are not
modelled as behaviour. They appear as inputs:

- the timestamp string of an automatic file name;
- the backend's `Info` answers;
- the `DateCodec` pair of conversions, epoch seconds to `YYYYMMDD` and ISO
  text to `YYYYMMDD`, either of which may fail;
- the outcome of the listing and of saving the file in the worker.

## Where the code and the intended design differ

The model follows the code in each case below.

- **Terminal stages.** One would expect a terminal stage (`completed`,
  `error`) never to be overwritten by a later update. In the code,
  `update_progress` overwrites the whole entry unconditionally and drops any
  attached result. `Store.TerminalStageNotProtected` states this.
- **Updates to unknown tasks.** One would expect an update to an
  unknown task to be a no-op. In the code, `update_progress` creates the entry.
  Only result attachment checks whether the task is present.
- **Clean-up.** One would expect a task to be removed after its terminal
  result has been retrieved. The code never removes a polled task, so polling
  answers the same way every time (`Store.PollingIsRepeatable`). Entries are
  removed only when a request is rejected.
- **Non-decreasing percent.** One would expect the percent of a task
  never to decrease before a terminal stage. With an exclusion upload, the
  request handler leaves the task at 5%. The worker's first write then sets
  it to 1% (`Store.StartAfterUploadGoesBack`). The scraper's own events are
  non-decreasing (`Scrape.ScrapeEventsWellFormed`).

## Model

| member | source | states |
|---|---|---|
| Text.RStrip | modules/youtube/scraper.py:50 | `rstrip("/")` leaves a prefix of the input with no trailing slash, and removes only slashes |
| Text.Strip | web_app.py:84-87 | the stripped text is the input with only its leading and trailing whitespace removed: it is the slice after the leading whitespace, everything after it is whitespace, it is empty exactly when the input is all whitespace, and otherwise starts and ends with a non-space |
| Text.LeadingSpace | web_app.py:84-87 | the count of leading characters that strip removes is a whitespace run ended by a non-space or by the end of the text |
| Channel.UploadUrl | modules/youtube/scraper.py:43-53 | a listing URL, or a URL that is not a channel profile, is returned unchanged; a profile URL becomes its slash-trimmed stem followed by "/videos", where the stem is a prefix of the input and the rest of the input is only slashes |
| Channel.UploadUrlIdempotent | modules/youtube/scraper.py:43-53 | rewriting the rewritten URL changes nothing |
| Channel.UploadUrlOfProfileIsListing | modules/youtube/scraper.py:47-51 | every rewritten profile URL counts as an uploads listing |
| Channel.HandleName | modules/youtube/scraper.py:66-68 | nothing exactly when no "@" is followed by a non-slash; otherwise the slash-free run after the leftmost such "@" |
| Channel.SegmentName | modules/youtube/scraper.py:71-73 | nothing exactly when no "/channel/", "/c/" or "/user/" segment is followed by a non-slash; otherwise the slash-free run after the leftmost one |
| Channel.ChannelName | modules/youtube/scraper.py:65-76 | a non-empty name with no slash: the handle when there is one, else the path segment, else "youtube_channel" |
| VideoIds.WatchUrl | modules/youtube/scraper.py:400 | the watch URL is the fixed prefix followed by the id |
| VideoIds.ExtractVideoId | modules/youtube/scraper.py:88-96 | nothing for the empty URL or when no alternative matches; otherwise an 11-character id of letters, digits, "_" and "-", taken at the leftmost match, with "watch?v=" tried before "/" |
| VideoIds.NoMatchBeforeWatch | modules/youtube/scraper.py:92 | in a watch URL, no match starts before the "watch?v=" part |
| VideoIds.WatchUrlRoundTrip | modules/youtube/scraper.py:92-94 | the id extracted from the watch URL of a valid id is that id |
| Exclusion.Collect | modules/youtube/scraper.py:140-150 | the ids gathered from a column are exactly the cell readings that produce an id |
| Exclusion.UrlCellId | modules/youtube/scraper.py:140-143 | a non-null URL cell contributes the id extracted from its text, which is a well-formed video id; a null cell contributes nothing |
| Exclusion.IdCellId | modules/youtube/scraper.py:147-150 | an id cell contributes exactly when it is non-null and its stripped text has 11 characters, and what it contributes is that stripped text |
| Exclusion.UrlColumnIds | modules/youtube/scraper.py:124-143 | the ids come from the first column whose lower-cased header contains "url", and there are none without one |
| Exclusion.IdColumnIds | modules/youtube/scraper.py:131-150 | the ids come from the first column whose lower-cased header contains "id" or "video", and there are none without one |
| Exclusion.LoadExistingVideos | modules/youtube/scraper.py:108-158 | a missing or unreadable file gives the empty set; otherwise every id of both chosen columns is in the set, every member came from one of them, and all have 11 characters |
| Entries.ResolveUrl | modules/youtube/scraper.py:396-418 | the URL follows the priority id, url, webpage_url, video_id; ids become watch URLs; there is no URL exactly when all four are empty |
| Entries.RawDate | modules/youtube/scraper.py:431-438 | the date is the first truthy one of upload_date, release_date, timestamp, published and published_time, one clause per field, each applying only when every earlier field is falsy; there is none exactly when all are falsy |
| Entries.NormalizeDate | modules/youtube/scraper.py:441-454 | an epoch value gives the epoch conversion's result; texts of at most eight characters are kept; longer texts give the ISO conversion's result when it succeeds and otherwise their first eight characters |
| Entries.PublishDate | modules/youtube/scraper.py:431-461 | the recorded date is never empty; it is "N/A" when no date field is truthy, the epoch conversion's non-empty result (else "N/A") for a timestamp, the text itself for a short text, and for a longer text the ISO conversion's non-empty result, "N/A" if that is empty, or the first eight characters if it fails |
| Entries.RecordVideoId | modules/youtube/scraper.py:462 | the recorded id is the entry's id when non-empty; otherwise the video_id key's value, which may be null, or "N/A" when the key is missing |
| Entries.MakeItem | modules/youtube/scraper.py:458-467 | the item carries the resolved URL, is dated exactly when dates were requested, and a dated item carries the entry's publish date and recorded video id |
| Entries.Excluded | modules/youtube/scraper.py:421-424 | an entry is skipped as already exported exactly when its id is present, non-empty and in the exclusion set |
| Entries.Keep | modules/youtube/scraper.py:361-467 | a slot yields one item exactly when it is not null, has a URL and is not excluded, and that item is built from the resolved URL |
| Progress.HeartbeatPercent | modules/youtube/scraper.py:263-271 | tick k reports 15 + k, capped at 25 |
| Progress.HeartbeatEvent | modules/youtube/scraper.py:271-273 | the heartbeat of tick k is a `fetching` event at `HeartbeatPercent(k)` (between 15% and 25%) with zero counts |
| Progress.HeartbeatMonotone | modules/youtube/scraper.py:269-276 | a later tick never reports a smaller percent |
| Progress.Heartbeats | modules/youtube/scraper.py:266-274 | the first n ticks, in order |
| Progress.HeartbeatsWellFormed | modules/youtube/scraper.py:266-276 | heartbeat percents never decrease, and their counts stay within their totals |
| Progress.WalkPercent | modules/youtube/scraper.py:367-375 | the walk percent lies between 30 and 85, and is 85 once every entry is processed |
| Progress.WalkPercentFloor | modules/youtube/scraper.py:367-375 | the walk percent is 30 plus s, where s is the largest whole number with s × total ≤ processed × 55 |
| Progress.WalkPercentMonotone | modules/youtube/scraper.py:367-375 | processing more entries never lowers the walk percent |
| Walk.Step | modules/youtube/scraper.py:357-479 | a null slot is skipped without counting; any other slot is counted and appends exactly what `Keep` yields |
| Walk.WalkOver | modules/youtube/scraper.py:354-484 | the walk counts at most one entry per slot and keeps at most one item per counted entry |
| Walk.WalkItemsAreAccepted | modules/youtube/scraper.py:357-467 | the walk's items equal the reference list: each slot's kept item, in slot order |
| Walk.AcceptedShape | modules/youtube/scraper.py:458-467 | every kept item is dated exactly when dates were requested |
| Walk.ExclusionDropsOnlyExcluded | modules/youtube/scraper.py:420-424 | the items kept under the exclusion set are the items kept, with no exclusion, from the slots left after removing the excluded entries |
| Walk.StepKeepsBounded | modules/youtube/scraper.py:469-479 | one step keeps every event an `extracting` event with the walk's total, a count within the kept items, and a percent within the walk's range |
| Walk.StepKeepsOrdered | modules/youtube/scraper.py:469-479 | one step keeps event counts strictly increasing and percents non-decreasing |
| Walk.StepKeepsEmits | modules/youtube/scraper.py:469-479 | one step keeps the emission rule exact |
| Walk.WalkEventInvariants | modules/youtube/scraper.py:469-479 | an event is emitted for the n-th kept item exactly when n is a multiple of five, equals the total, or is at most ten; counts increase, percents never decrease, and all stay in range |
| Scrape.NewConfig | modules/youtube/scraper.py:28-29 | a zero limit selects the configured default: at most 300, at least 200 |
| Scrape.ChooseEntries | modules/youtube/scraper.py:307-346 | the fallback is tried exactly when the primary list is shorter than the minimum, and replaces it only when strictly longer |
| Scrape.ExclusionSet | modules/youtube/scraper.py:185-191 | no exclusion file means no exclusions; a given file yields exactly the ids `Exclusion.LoadExistingVideos` reads from it; every exclusion has 11 characters |
| Scrape.Opening | modules/youtube/scraper.py:184-247 | the events before the backend call are `reading_exclude` at 5% (once with a file, twice when it yielded ids, never without one), then `connecting` at 10% and `fetching` at 15%, all with zero counts |
| Scrape.Prelude | modules/youtube/scraper.py:184-274 | the events before the backend answers are the opening events followed by one heartbeat per tick; they never decrease and stay between 5% and 25% |
| Scrape.Parsed | modules/youtube/scraper.py:297-304 | the parsing events lie between 25% and 30% and never decrease; the last one is at 30% with the capped entry count as total, and a lazy listing adds a 25% heartbeat before it, so there are two events exactly when the listing is lazy |
| Scrape.HeadWellFormed | modules/youtube/scraper.py:187-304 | everything reported up to the walk never decreases and stays between 5% and 30% |
| Scrape.ScrapeWith | modules/youtube/scraper.py:289-350 | no backend information gives no items and no fallback; otherwise the fallback is tried exactly when the primary list was under the minimum |
| Scrape.ScrapeChannel | modules/youtube/scraper.py:173-511 | the same as `ScrapeWith`, with the exclusion set read from the optional exclusion file |
| Scrape.ScrapeItems | modules/youtube/scraper.py:348-467 | the items are exactly the kept items of the first `maxVideos` chosen entries, in order |
| Scrape.ScrapeItemsShaped | modules/youtube/scraper.py:458-467 | every item of a scrape is dated exactly when dates were requested, so the list has one shape |
| Scrape.ScrapeBounded | modules/youtube/scraper.py:354-359 | a scrape never yields more than `maxVideos` items |
| Scrape.WalkTailWellFormed | modules/youtube/scraper.py:469-486 | the walk's events and the closing event never decrease, and their counts stay within totals |
| Scrape.ScrapeWithEventsWellFormed | modules/youtube/scraper.py:187-486 | every event of a scrape has its count within its total and a percent between 5 and 85, and percents never decrease |
| Scrape.ScrapeEventsWellFormed | modules/youtube/scraper.py:187-486 | the same, for the scrape that reads the exclusion file itself |
| Scrape.ScrapeWithEvents | modules/youtube/scraper.py:187-486 | the events of a scrape are the opening and heartbeat events, then (when the backend answered) the parsing events, then (when entries were chosen) the walk's events and the closing event at 85 |
| Scrape.ScrapeWithWalkEvents | modules/youtube/scraper.py:361-486 | for any exclusion set, when entries were chosen, the walk part of the events has an event for exactly the kept items the emission rule selects, in order and within bounds |
| Scrape.Finished | modules/youtube/scraper.py:485-486 | the closing event is `extracting` with both counts equal to the item count, at the percent a completed walk reaches |
| Scrape.ScrapeEvents | modules/youtube/scraper.py:187-486 | the same decomposition for the whole scrape; the walk part has an event for the n-th kept item exactly when n is a multiple of five, equals the total or is at most ten, in order and within bounds |
| Scrape.ScrapeEndsAtEightyFive | modules/youtube/scraper.py:485-486 | a scrape that found entries ends with `extracting` at 85% and both counts equal to the number of items |
| Export.Stem | modules/youtube/scraper.py:530-532 | the file-name stem is non-empty with no slash; it is "youtube_channel" without a channel reference or with an empty one, and the channel name derived from the reference otherwise |
| Export.FileName | modules/youtube/scraper.py:534-539 | a given file name is used unchanged; otherwise the name starts with the stem and "_" and ends with the format's extension |
| Export.AutomaticFileName | modules/youtube/scraper.py:534-539 | an automatic name has no slash, begins with the stem and "_", ends with the format's extension, and ends with ".xlsx" exactly for the spreadsheet format |
| Export.ExportTable | modules/youtube/scraper.py:544-569 | the first column is "URL" with every item's URL; dated items add "发布时间" and "视频ID" columns holding each item's date and id; plain items give only the URL column |
| Export.UrlText | modules/youtube/scraper.py:571-573 | the written text is empty exactly for an empty list, and otherwise ends with a newline |
| Export.UrlTextRoundTrip | modules/youtube/scraper.py:571-573 | splitting the written text into lines gives back the URL list |
| Export.PlainFileRoundTrip | modules/youtube/scraper.py:564-573 | the plain-text file of a URL-only scrape reads back as exactly the items' URLs, one line per item, in order |
| Export.UrlHeaderFirst | modules/youtube/scraper.py:124-129 | the exported "URL" column is the column the loader takes URLs from |
| Export.IdHeaderThird | modules/youtube/scraper.py:131-136 | in a dated export, "视频ID" is the first column the loader takes ids from |
| Export.ExportedVideosAreExcluded | modules/youtube/scraper.py:544-558 | reading an exported spreadsheet back as the exclusion file excludes every exported watch-URL id, and every exported id of 11 characters |
| Store.UpdateProgress | web_app.py:43-53 | the task's entry becomes exactly the new snapshot with no result, whether or not it existed; no other task changes |
| Store.AttachResult | web_app.py:148-158 | only a task still present gets the result; its snapshot and all other tasks are unchanged |
| Store.ApplyUpdates | web_app.py:104-105 | after a run of updates the task holds only the latest snapshot, and other tasks are unchanged |
| Store.TerminalStageNotProtected | web_app.py:43-53 | an update overwrites a completed or failed task and clears its result |
| Store.GetProgress | web_app.py:191-216 | 404 exactly for an unknown task; otherwise the stored snapshot and result, the result shown exactly in a terminal stage; the store is unchanged |
| Store.PollingIsRepeatable | web_app.py:201-211 | polling twice answers as polling once, because terminal tasks are not cleaned up |
| Store.LastIndexOf | web_app.py:40 | the last dot: none when absent; otherwise a dot with no dot after it |
| Store.AllowedFile | web_app.py:38-40 | an accepted name contains a dot |
| Store.SuffixDecides | web_app.py:38-40 | a name ending, case-insensitively, in a dot and a letter-only extension has its last dot there, and passes exactly when that extension is allowed |
| Store.AllowedHasSuffix | web_app.py:38-40 | an accepted name ends, lower-cased, with ".xlsx" or ".xls" |
| Store.AllowedFileBySuffix | web_app.py:38-40 | a name is accepted exactly when, lower-cased, it ends with ".xlsx" or ".xls" |
| Store.JsonIncludeDate | web_app.py:85 | the JSON flag is the truth value of `include_date` with default true: true when absent, false when null |
| Store.UsesUpload | web_app.py:70-72 | an upload is used exactly when it has a name that, lower-cased, ends with ".xlsx" or ".xls" |
| Store.FormIncludeDate | web_app.py:88 | the form flag is true when absent, and otherwise exactly when the value is "true" in any letter case |
| Store.HandleScrape | web_app.py:59-97 | a form never answers 500 and answers 400 exactly when its channel reference is blank or absent; a JSON body answers 500 exactly when the reference is null and 400 exactly when it is absent or blank; otherwise the task waits at 0% (or at 5% in `reading_exclude` after an allowed upload) with the stripped channel reference and the body's date flag (the form's checkbox text or the JSON boolean); rejected tasks are removed and other tasks are unchanged |
| Entries.Urls | web_app.py:157 | the URL of each item, in order |
| Store.SampleUrls | web_app.py:157 | the URLs of the first ten items, in order |
| Store.Fail | web_app.py:159-167 | a failure leaves the task in `error` at 0% with the failure payload |
| Store.RunWorker | web_app.py:108-167 | the worker always leaves its task in a terminal stage and changes no other task |
| Store.StartAfterUploadGoesBack | web_app.py:73-111 | a form request with an allowed upload and a non-blank channel URL is accepted with the task at 5%, and the worker's first write then puts it at 1% |
| Store.WorkerSuccess | web_app.py:121-158 | a non-empty listing that was saved ends `completed` at 100%, with both counts equal to the item count and a success payload of at most ten sample URLs |
| Store.WorkerFailure | web_app.py:121-167 | a raised listing or save ends in `error` at 0% with its message as the failure payload; an empty listing ends there with no payload |

## Left out

- The backend library (`yt_dlp`), its option dictionaries and its network calls. Its answers are the `Info` inputs.
- Exceptions raised by the backend call. When the primary call raises, its `finally` block reads the still unbound `info` (scraper.py:286-291). That read raises `UnboundLocalError`, which replaces the backend's error and is re-raised to the worker (scraper.py:507-509). The worker's `Raised` outcome in `Store.RunWorker` takes the message as a parameter, so which error it carries is not modelled.
- A null `entries` value in a backend answer. It is not modelled.
- The heartbeat thread, the lock and all concurrency. The heartbeat is a count of ticks that all precede the backend's answer. A heartbeat racing with later events is not modelled.
- The remaining-time estimate. It depends on the wall clock, so it is not modelled.
- Log output. It has no effect on results.
- The reading and writing of files (pandas, openpyxl), the upload folder and the removal of the uploaded file. Tables and texts are values.
- The message texts of the scraper's progress events, including the heartbeat's four rotating messages. Events carry stage, percent and counts only. The store models only its own fixed texts.
- `secure_filename`. The raw upload name stands in for it in the `reading_exclude` message.
- The download and listing routes and the page route of the web front end. They are outside the listing core.
- The tab-separated text output of dated items (`to_csv`). Only the plain URL text format is modelled.
- Text.Lower: folds ASCII letters only, while Python's `lower()` also folds other scripts. Headers, upload names and form values may be non-ASCII, but the model still gives Python's answers wherever a lower-cased text is used. Only 'İ' (U+0130, which becomes "i" plus U+0307) and the Kelvin sign (U+212A, which becomes "k") lower-case to ASCII letters. Neither can complete "url", "id", "video", "xls", "xlsx" or "true", because the 'i' from 'İ' is always followed by U+0307 and none of these texts contains a 'k'.
- Progress.WalkPercentFloor: states the exact floor of processed × 55 / total. The code computes it in floating point, which can round down one step earlier.
- Entries.NormalizeDate: float timestamps are not modelled, and epoch and ISO conversion (including the replacement of "Z") are parameters.
- Export.ExportTable: requires items of one shape, which every scrape produces (`Scrape.ScrapeItemsShaped`). The code's handling of mixed lists of strings and records is not modelled.
- Store.HandleScrape: a JSON channel reference is a string or null. Other JSON value types also fail, and that failure is not modelled.
- Store.HandleScrape: a JSON body is an object. A body that does not parse, or parses to something other than an object (null, a list, a number), makes the lookup fail (web_app.py:83-84). The handler then answers 500 (web_app.py:180-188), and that case is not modelled. The 500 rule for JSON bodies covers only objects.
- Store.HandleScrape: a JSON `include_date` is a boolean. The code passes any other JSON value through unchanged as the date flag, and that is not modelled.
- Store.Request: an upload may be given alongside a JSON body, which a real JSON request never carries because its uploaded-file dictionary is empty. The handler's contract covers this combination anyway.
- Exceptions in the middle of the walk, which would discard the partial list, are not modelled.

=== FILE: channel.dfy ===
/** Channel references: the rewrite into an uploads listing
    (`_get_channel_upload_url`) and the file-name stem taken from the
    reference (`_extract_channel_name`). */
module Channel {
  import opened Values
  import opened Text

  /** The uploads-listing suffix appended to profile-shaped references. */
  const VideosSuffix: string := "/videos"

  /** The stem used when no handle or channel segment can be found. */
  const DefaultName: string := "youtube_channel"

  /** Already a listing reference: it mentions "/videos" or "/playlists". */
  predicate IsListing(u: string) {
    Contains(u, VideosSuffix) || Contains(u, "/playlists")
  }

  /** A channel home page: a channel id, custom, user or handle path. */
  predicate IsProfile(u: string) {
    Contains(u, "/channel/") || Contains(u, "/c/") || Contains(u, "/user/") || Contains(u, "/@")
  }

  /** The uploads-listing form of a channel reference. Listing references
      and references of no recognised shape are kept as they are; a profile
      reference loses its trailing slashes and gains "/videos" once. */
  function UploadUrl(u: string): (r: string)
    ensures IsListing(u) || !IsProfile(u) ==> r == u
    ensures !IsListing(u) && IsProfile(u) ==>
      && EndsWith(r, VideosSuffix)
      && var stem := r[..|r| - |VideosSuffix|];
      && |stem| <= |u| && stem == u[..|stem|]
      && (|stem| > 0 ==> stem[|stem| - 1] != '/')
      && forall k :: |stem| <= k < |u| ==> u[k] == '/'
  {
    if IsListing(u) then u
    else if IsProfile(u) then
      EndsWithContains(u, VideosSuffix);
      if !EndsWith(u, VideosSuffix) then
        var r := RStrip(u, '/') + VideosSuffix;
        assert r[..|r| - |VideosSuffix|] == RStrip(u, '/');
        r
      else u
    else u
  }

  /** Rewriting a reference twice gives the same result as rewriting it once. */
  lemma {:induction false} UploadUrlIdempotent(u: string)
    ensures UploadUrl(UploadUrl(u)) == UploadUrl(u)
  {
    if !IsListing(u) && IsProfile(u) {
      ContainsSuffix(RStrip(u, '/'), VideosSuffix);
    }
  }

  /** Every rewritten profile reference is a listing reference. */
  lemma {:induction false} UploadUrlOfProfileIsListing(u: string)
    requires IsProfile(u)
    ensures IsListing(UploadUrl(u))
  {
    if !IsListing(u) {
      ContainsSuffix(RStrip(u, '/'), VideosSuffix);
    }
  }

  /** The regular expression `@([^/]+)` matches at `i`. */
  predicate HandleAt(s: string, i: nat) {
    i + 1 < |s| && s[i] == '@' && s[i + 1] != '/'
  }

  /** The literal part of `/(?:channel|c|user)/([^/]+)` that matches at `i`,
      alternatives tried in that order, each needing one non-slash after it. */
  function SegmentPrefix(s: string, i: nat): (r: Option<string>)
    ensures r.Some? ==> OccursAt(s, r.value, i) && i + |r.value| < |s| && s[i + |r.value|] != '/'
    ensures r.Some? ==> r.value in {"/channel/", "/c/", "/user/"}
  {
    if OccursAt(s, "/channel/", i) && i + 9 < |s| && s[i + 9] != '/' then Some("/channel/")
    else if OccursAt(s, "/c/", i) && i + 3 < |s| && s[i + 3] != '/' then Some("/c/")
    else if OccursAt(s, "/user/", i) && i + 6 < |s| && s[i + 6] != '/' then Some("/user/")
    else None
  }

  predicate SegmentAt(s: string, i: nat) {
    SegmentPrefix(s, i).Some?
  }

  /** `g` is what a greedy `[^/]+` group captures when it starts at `j`:
      a non-empty run of non-slash characters ended by a slash or the end. */
  predicate Captures(s: string, j: nat, g: string) {
    && g != ""
    && OccursAt(s, g, j)
    && '/' !in g
    && (j + |g| == |s| || s[j + |g|] == '/')
  }

  /** The group of `@([^/]+)` at its leftmost match, if there is one. */
  function HandleName(u: string): (r: Option<string>)
    ensures r.None? <==> forall i :: 0 <= i < |u| ==> !HandleAt(u, i)
    ensures r.Some? ==> forall i: nat :: FirstMatch(u, i, HandleAt) ==> Captures(u, i + 1, r.value)
  {
    match Leftmost(u, 0, HandleAt)
    case Some(i) =>
      var g := TakeUntil(u[i + 1..], '/');
      assert OccursAt(u, g, i + 1);
      Some(g)
    case None => None
  }

  /** The group of `/(?:channel|c|user)/([^/]+)` at its leftmost match. */
  function SegmentName(u: string): (r: Option<string>)
    ensures r.None? <==> forall i :: 0 <= i < |u| ==> !SegmentAt(u, i)
    ensures r.Some? ==>
      forall i: nat :: FirstMatch(u, i, SegmentAt) ==> Captures(u, i + |SegmentPrefix(u, i).value|, r.value)
  {
    match Leftmost(u, 0, SegmentAt)
    case Some(i) =>
      var p := SegmentPrefix(u, i).value;
      var j := i + |p|;
      var g := TakeUntil(u[j..], '/');
      assert Captures(u, j, g) by {
        assert OccursAt(u, g, j);
      }
      assert forall i': nat :: FirstMatch(u, i', SegmentAt) ==> i' == i;
      Some(g)
    case None => None
  }

  /** The file-name stem for a channel reference: the handle after the
      leftmost "@", else the segment after the leftmost "/channel/", "/c/"
      or "/user/", else the default name. */
  function ChannelName(u: string): (r: string)
    ensures r != "" && '/' !in r
    ensures forall i: nat :: FirstMatch(u, i, HandleAt) ==> Captures(u, i + 1, r)
    ensures (forall i :: 0 <= i < |u| ==> !HandleAt(u, i)) ==>
      forall i: nat :: FirstMatch(u, i, SegmentAt) ==> Captures(u, i + |SegmentPrefix(u, i).value|, r)
    ensures (forall i :: 0 <= i < |u| ==> !HandleAt(u, i) && !SegmentAt(u, i)) ==> r == DefaultName
  {
    match HandleName(u)
    case Some(h) => h
    case None =>
      match SegmentName(u)
      case Some(c) => c
      case None => DefaultName
  }
}

=== FILE: entries.dfy ===
/** Backend entries and the records the walk makes of them: URL
    resolution, the exclusion rule, publish-date selection and the record
    shape (the body of the entry loop of `scrape_channel`). */
module Entries {
  import opened Values
  import opened Text
  import opened VideoIds

  /** A publish-date value as the backend reports it: text, or an epoch
      number of seconds. */
  datatype DateValue = DateText(text: string) | Epoch(seconds: int)

  /** The fields of one backend entry the scraper looks at. */
  datatype Entry = Entry(
    id: Field<string>,
    url: Field<string>,
    webpageUrl: Field<string>,
    videoId: Field<string>,
    uploadDate: Field<DateValue>,
    releaseDate: Field<DateValue>,
    timestamp: Field<DateValue>,
    published: Field<DateValue>,
    publishedTime: Field<DateValue>)

  /** The two conversions the date logic delegates to the platform's date
      library: epoch seconds to "YYYYMMDD" in the local time zone, and an
      ISO-8601 text to "YYYYMMDD". `None` stands for a conversion that raised. */
  datatype DateCodec = DateCodec(fromEpoch: int -> Option<string>, fromIso: string -> Option<string>)

  /** One scraped video: a bare URL when dates were not asked for, otherwise
      the URL with its publish date and id (null when the entry's
      `video_id` field held null). */
  datatype Item = Plain(url: string) | Dated(url: string, uploadDate: string, videoId: Option<string>)

  /** Every item has the same shape, as every walk produces. */
  predicate Uniform(items: seq<Item>) {
    (forall i :: 0 <= i < |items| ==> items[i].Plain?) || (forall i :: 0 <= i < |items| ==> items[i].Dated?)
  }

  /** The marker for an unknown date or id. */
  const NotAvailable: string := "N/A"

  /** Truthiness of a date value: present, and neither empty text nor zero. */
  predicate TruthyDate(f: Field<DateValue>) {
    f.Given? && match f.value
      case DateText(s) => s != ""
      case Epoch(t) => t != 0
  }

  /** The URL of an entry: the watch URL of `id`, else `url`, else
      `webpage_url`, else the watch URL of `video_id`; none when all four
      are empty. */
  function ResolveUrl(e: Entry): (r: Option<string>)
    ensures r.Some? ==> r.value != ""
    ensures r.None? <==> !TruthyText(e.id) && !TruthyText(e.url) && !TruthyText(e.webpageUrl) && !TruthyText(e.videoId)
    ensures TruthyText(e.id) ==> r == Some(WatchUrl(e.id.value))
    ensures !TruthyText(e.id) && TruthyText(e.url) ==> r == Some(e.url.value)
    ensures !TruthyText(e.id) && !TruthyText(e.url) && TruthyText(e.webpageUrl) ==> r == Some(e.webpageUrl.value)
    ensures !TruthyText(e.id) && !TruthyText(e.url) && !TruthyText(e.webpageUrl) && TruthyText(e.videoId)
      ==> r == Some(WatchUrl(e.videoId.value))
  {
    if TruthyText(e.id) then Some(WatchUrl(e.id.value))
    else if TruthyText(e.url) then Some(e.url.value)
    else if TruthyText(e.webpageUrl) then Some(e.webpageUrl.value)
    else if TruthyText(e.videoId) then Some(WatchUrl(e.videoId.value))
    else None
  }

  /** An entry is skipped as already exported exactly when the exclusion
      set is non-empty and holds the entry's non-empty `id`. */
  predicate Excluded(e: Entry, exclusion: set<string>): (b: bool)
    ensures b <==> e.id.Given? && e.id.value != "" && e.id.value in exclusion
  {
    exclusion != {} && TruthyText(e.id) && e.id.value in exclusion
  }

  /** The first truthy value among upload_date, release_date, timestamp,
      published and published_time. */
  function RawDate(e: Entry): (r: Option<DateValue>)
    ensures r.None? <==> !TruthyDate(e.uploadDate) && !TruthyDate(e.releaseDate) && !TruthyDate(e.timestamp)
                         && !TruthyDate(e.published) && !TruthyDate(e.publishedTime)
    ensures TruthyDate(e.uploadDate) ==> r == Some(e.uploadDate.value)
    ensures !TruthyDate(e.uploadDate) && TruthyDate(e.releaseDate) ==> r == Some(e.releaseDate.value)
    ensures !TruthyDate(e.uploadDate) && !TruthyDate(e.releaseDate) && TruthyDate(e.timestamp)
      ==> r == Some(e.timestamp.value)
    ensures (!TruthyDate(e.uploadDate) && !TruthyDate(e.releaseDate) && !TruthyDate(e.timestamp)
             && TruthyDate(e.published)) ==> r == Some(e.published.value)
    ensures (!TruthyDate(e.uploadDate) && !TruthyDate(e.releaseDate) && !TruthyDate(e.timestamp)
             && !TruthyDate(e.published) && TruthyDate(e.publishedTime)) ==> r == Some(e.publishedTime.value)
  {
    if TruthyDate(e.uploadDate) then Some(e.uploadDate.value)
    else if TruthyDate(e.releaseDate) then Some(e.releaseDate.value)
    else if TruthyDate(e.timestamp) then Some(e.timestamp.value)
    else if TruthyDate(e.published) then Some(e.published.value)
    else if TruthyDate(e.publishedTime) then Some(e.publishedTime.value)
    else None
  }

  /** The date text of a raw date value: epoch seconds go through the
      epoch conversion; texts longer than eight characters go through the
      ISO conversion and fall back to their first eight characters; shorter
      texts are kept verbatim. */
  function NormalizeDate(v: DateValue, codec: DateCodec): (r: Option<string>)
    ensures v.Epoch? ==> r == codec.fromEpoch(v.seconds)
    ensures v.DateText? && |v.text| <= 8 ==> r == Some(v.text)
    ensures v.DateText? && |v.text| > 8 && codec.fromIso(v.text).Some? ==> r == codec.fromIso(v.text)
    ensures v.DateText? && |v.text| > 8 && codec.fromIso(v.text).None? ==> r == Some(v.text[..8])
  {
    match v
    case Epoch(t) => codec.fromEpoch(t)
    case DateText(s) =>
      if |s| > 8 then
        match codec.fromIso(s)
        case Some(d) => Some(d)
        case None => Some(s[..8])
      else Some(s)
  }

  /** The recorded publish date: the normalised first date field, or "N/A"
      when there is none, its conversion failed or it came out empty. */
  function PublishDate(e: Entry, codec: DateCodec): (r: string)
    ensures r != ""
    ensures RawDate(e).None? ==> r == NotAvailable
    ensures RawDate(e).Some? && RawDate(e).value.DateText? && |RawDate(e).value.text| <= 8 ==> r == RawDate(e).value.text
    ensures RawDate(e).Some? && RawDate(e).value.Epoch? ==>
      var d := codec.fromEpoch(RawDate(e).value.seconds);
      r == (if d.Some? && d.value != "" then d.value else NotAvailable)
    ensures RawDate(e).Some? && RawDate(e).value.DateText? && |RawDate(e).value.text| > 8 ==>
      var d := codec.fromIso(RawDate(e).value.text);
      r == (if d.Some? && d.value != "" then d.value else if d.Some? then NotAvailable else RawDate(e).value.text[..8])
  {
    match RawDate(e)
    case None => NotAvailable
    case Some(v) =>
      match NormalizeDate(v, codec)
      case Some(d) => if d != "" then d else NotAvailable
      case None => NotAvailable
  }

  /** The recorded id: the entry's `id` when non-empty, else whatever its
      `video_id` key holds (null included), else "N/A" when that key is missing. */
  function RecordVideoId(e: Entry): (r: Option<string>)
    ensures TruthyText(e.id) ==> r == Some(e.id.value)
    ensures !TruthyText(e.id) ==> r == e.videoId.GetWithDefault(NotAvailable)
  {
    if TruthyText(e.id) then Some(e.id.value) else e.videoId.GetWithDefault(NotAvailable)
  }

  /** The item for an entry whose URL resolved to `url`. */
  function MakeItem(e: Entry, url: string, includeDate: bool, codec: DateCodec): (r: Item)
    ensures r.url == url
    ensures r.Dated? <==> includeDate
    ensures r.Dated? ==> r.uploadDate == PublishDate(e, codec) && r.videoId == RecordVideoId(e)
  {
    if includeDate then Dated(url, PublishDate(e, codec), RecordVideoId(e)) else Plain(url)
  }

  /** What the walk keeps of one backend slot: nothing for a null slot, an
      entry without URL or an excluded entry, else exactly one item. */
  function Keep(slot: Option<Entry>, exclusion: set<string>, includeDate: bool, codec: DateCodec): (r: seq<Item>)
    ensures |r| <= 1
    ensures |r| == 1 <==> slot.Some? && ResolveUrl(slot.value).Some? && !Excluded(slot.value, exclusion)
    ensures |r| == 1 ==> r[0] == MakeItem(slot.value, ResolveUrl(slot.value).value, includeDate, codec)
  {
    match slot
    case None => []
    case Some(e) =>
      match ResolveUrl(e)
      case None => []
      case Some(u) => if Excluded(e, exclusion) then [] else [MakeItem(e, u, includeDate, codec)]
  }

  /** The URL of every item, in order. */
  function Urls(items: seq<Item>): (r: seq<string>)
    ensures |r| == |items| && forall i :: 0 <= i < |items| ==> r[i] == items[i].url
  {
    seq(|items|, i requires 0 <= i < |items| => items[i].url)
  }
}

=== FILE: exclusion.dfy ===
/** The exclusion set: ids of videos already exported, read from a prior
    spreadsheet (`load_existing_videos`). The spreadsheet is an abstract
    table of columns whose cells are the `str()` text of each value, or
    nothing for an empty cell. */
module Exclusion {
  import opened Values
  import opened Text
  import opened VideoIds

  datatype Column = Column(header: string, cells: seq<Option<string>>)

  type Table = seq<Column>

  /** What reading the spreadsheet yields: no such file, a file that could
      not be read or parsed, or its table. */
  datatype Source = Missing | Unreadable | Sheet(table: Table)

  /** The URL column: a header whose lower-case form contains "url". */
  predicate UrlHeaderAt(t: Table, i: nat) {
    i < |t| && Contains(Lower(t[i].header), "url")
  }

  /** The id column: a header whose lower-case form contains "id" or "video". */
  predicate IdHeaderAt(t: Table, i: nat) {
    i < |t| && (Contains(Lower(t[i].header), "id") || Contains(Lower(t[i].header), "video"))
  }

  /** The set of values `read` takes from the cells, in any order. */
  function Collect(cells: seq<Option<string>>, read: Option<string> -> Option<string>): (r: set<string>)
    ensures forall x :: x in r <==> exists k :: 0 <= k < |cells| && read(cells[k]) == Some(x)
  {
    if cells == [] then {}
    else
      var init := cells[..|cells| - 1];
      var last := read(cells[|cells| - 1]);
      assert forall k :: 0 <= k < |init| ==> init[k] == cells[k];
      Collect(init, read) + (if last.Some? then {last.value} else {})
  }

  /** The id a URL cell contributes: the one extracted from its text. */
  function UrlCellId(c: Option<string>): (r: Option<string>)
    ensures r.Some? ==> IsVideoId(r.value)
    ensures c.Some? ==> r == ExtractVideoId(c.value)
    ensures c.None? ==> r.None?
  {
    if c.Some? then ExtractVideoId(c.value) else None
  }

  /** The id an id cell contributes: its trimmed text, when that is
      exactly eleven characters long. */
  function IdCellId(c: Option<string>): (r: Option<string>)
    ensures r.Some? ==> |r.value| == IdLength
    ensures r.Some? <==> c.Some? && |Strip(c.value)| == IdLength
    ensures r.Some? ==> r.value == Strip(c.value)
  {
    if c.Some? && |Strip(c.value)| == IdLength then Some(Strip(c.value)) else None
  }

  /** The ids of the first URL column, or none when no header qualifies. */
  function UrlColumnIds(t: Table): (r: set<string>)
    ensures forall x :: x in r ==> IsVideoId(x)
    ensures forall i: nat :: FirstMatch(t, i, UrlHeaderAt) ==> r == Collect(t[i].cells, UrlCellId)
    ensures (forall i :: 0 <= i < |t| ==> !UrlHeaderAt(t, i)) ==> r == {}
  {
    match Leftmost(t, 0, UrlHeaderAt)
    case Some(i) =>
      assert forall i': nat :: FirstMatch(t, i', UrlHeaderAt) ==> i' == i;
      var r := Collect(t[i].cells, UrlCellId);
      assert forall x :: x in r ==> IsVideoId(x) by {
        forall x | x in r ensures IsVideoId(x) {
          var k :| 0 <= k < |t[i].cells| && UrlCellId(t[i].cells[k]) == Some(x);
        }
      }
      r
    case None => {}
  }

  /** The ids of the first id column, or none when no header qualifies. */
  function IdColumnIds(t: Table): (r: set<string>)
    ensures forall x :: x in r ==> |x| == IdLength
    ensures forall i: nat :: FirstMatch(t, i, IdHeaderAt) ==> r == Collect(t[i].cells, IdCellId)
    ensures (forall i :: 0 <= i < |t| ==> !IdHeaderAt(t, i)) ==> r == {}
  {
    match Leftmost(t, 0, IdHeaderAt)
    case Some(i) =>
      assert forall i': nat :: FirstMatch(t, i', IdHeaderAt) ==> i' == i;
      var r := Collect(t[i].cells, IdCellId);
      assert forall x :: x in r ==> |x| == IdLength by {
        forall x | x in r ensures |x| == IdLength {
          var k :| 0 <= k < |t[i].cells| && IdCellId(t[i].cells[k]) == Some(x);
        }
      }
      r
    case None => {}
  }

  /** The exclusion set read from a source. A missing or unreadable file
      gives the empty set rather than an error; a sheet gives the ids of
      its first URL column together with those of its first id column, and
      every id is eleven characters long. */
  function LoadExistingVideos(src: Source): (r: set<string>)
    ensures src.Missing? || src.Unreadable? ==> r == {}
    ensures forall x :: x in r ==> |x| == IdLength
    ensures src.Sheet? ==> forall i: nat, k :: FirstMatch(src.table, i, UrlHeaderAt) && 0 <= k < |src.table[i].cells| ==>
      var id := UrlCellId(src.table[i].cells[k]); id.Some? ==> id.value in r
    ensures src.Sheet? ==> forall i: nat, k :: FirstMatch(src.table, i, IdHeaderAt) && 0 <= k < |src.table[i].cells| ==>
      var id := IdCellId(src.table[i].cells[k]); id.Some? ==> id.value in r
    ensures src.Sheet? ==> forall x :: x in r ==>
      || (exists i: nat, k :: FirstMatch(src.table, i, UrlHeaderAt) && 0 <= k < |src.table[i].cells| && UrlCellId(src.table[i].cells[k]) == Some(x))
      || (exists i: nat, k :: FirstMatch(src.table, i, IdHeaderAt) && 0 <= k < |src.table[i].cells| && IdCellId(src.table[i].cells[k]) == Some(x))
  {
    match src
    case Missing => {}
    case Unreadable => {}
    case Sheet(t) =>
      SheetIds(t);
      UrlColumnIds(t) + IdColumnIds(t)
  }

  /** The ids of a sheet: those of its URL column and those of its id
      column, and no others. */
  lemma SheetIds(t: Table)
    ensures var r := UrlColumnIds(t) + IdColumnIds(t);
      && (forall x :: x in r ==> |x| == IdLength)
      && (forall i: nat, k :: FirstMatch(t, i, UrlHeaderAt) && 0 <= k < |t[i].cells| ==>
        var id := UrlCellId(t[i].cells[k]); id.Some? ==> id.value in r)
      && (forall i: nat, k :: FirstMatch(t, i, IdHeaderAt) && 0 <= k < |t[i].cells| ==>
        var id := IdCellId(t[i].cells[k]); id.Some? ==> id.value in r)
      && forall x :: x in r ==>
        || (exists i: nat, k :: FirstMatch(t, i, UrlHeaderAt) && 0 <= k < |t[i].cells| && UrlCellId(t[i].cells[k]) == Some(x))
        || (exists i: nat, k :: FirstMatch(t, i, IdHeaderAt) && 0 <= k < |t[i].cells| && IdCellId(t[i].cells[k]) == Some(x))
  {
    var u := UrlColumnIds(t);
    var d := IdColumnIds(t);
    ColumnMembers(t, UrlHeaderAt, UrlCellId, u);
    ColumnMembers(t, IdHeaderAt, IdCellId, d);
    assert forall x :: x in u ==> |x| == IdLength;
  }

  /** The ids of the first column a header test selects are exactly the
      ids its cells contribute. */
  lemma ColumnMembers(t: Table, at: (Table, nat) -> bool, read: Option<string> -> Option<string>, r: set<string>)
    requires forall i: nat :: FirstMatch(t, i, at) ==> r == Collect(t[i].cells, read)
    requires (forall i :: 0 <= i < |t| ==> !at(t, i)) ==> r == {}
    ensures forall i: nat, k :: FirstMatch(t, i, at) && 0 <= k < |t[i].cells| ==>
      var id := read(t[i].cells[k]); id.Some? ==> id.value in r
    ensures forall x :: x in r ==>
      exists i: nat, k :: FirstMatch(t, i, at) && 0 <= k < |t[i].cells| && read(t[i].cells[k]) == Some(x)
  {
    forall x | x in r
      ensures exists i: nat, k :: FirstMatch(t, i, at) && 0 <= k < |t[i].cells| && read(t[i].cells[k]) == Some(x)
    {
      var m := Leftmost(t, 0, at);
      assert m.Some?;
      assert FirstMatch(t, m.value, at);
    }
  }
}

=== FILE: export.dfy ===
/** What `save_urls` persists: the output file name, the table written to
    the spreadsheet, and the newline-terminated URL list of the text format. */
module Export {
  import opened Values
  import opened Text
  import opened VideoIds
  import opened Channel
  import opened Exclusion
  import opened Entries

  datatype Format = Excel | Txt

  /** The column headers of the spreadsheet: URL, publish time, video id. */
  const UrlHeader: string := "URL"
  const DateHeader: string := "发布时间"
  const IdHeader: string := "视频ID"

  function Extension(format: Format): string {
    match format
    case Excel => ".xlsx"
    case Txt => ".txt"
  }

  /** A timestamp as `%Y%m%d_%H%M%S` renders it: eight digits, an
      underscore, six digits. */
  predicate IsTimestamp(ts: string) {
    && |ts| == 15
    && ts[8] == '_'
    && forall k :: 0 <= k < |ts| && k != 8 ==> '0' <= ts[k] <= '9'
  }

  /** The stem of an automatic file name: the channel name, or the default
      when no (or an empty) channel reference was given. */
  function Stem(channelUrl: Option<string>): (r: string)
    ensures r != "" && '/' !in r
    ensures channelUrl.None? ==> r == DefaultName
    ensures channelUrl.Some? && channelUrl.value == "" ==> r == DefaultName
    ensures channelUrl.Some? && channelUrl.value != "" ==> r == ChannelName(channelUrl.value)
  {
    match channelUrl
    case Some(u) => if u != "" then ChannelName(u) else DefaultName
    case None => DefaultName
  }

  /** The file name: the given one, else `{stem}_{timestamp}{extension}`. */
  function FileName(given: Option<string>, channelUrl: Option<string>, format: Format, timestamp: string): (r: string)
    ensures given.Some? ==> r == given.value
    ensures given.None? ==> EndsWith(r, Extension(format))
    ensures given.None? ==> |r| > |Stem(channelUrl)| && r[..|Stem(channelUrl)| + 1] == Stem(channelUrl) + "_"
  {
    match given
    case Some(name) => name
    case None => Stem(channelUrl) + "_" + timestamp + Extension(format)
  }

  /** An automatic name is a single path component that starts with the
      channel stem and an underscore and ends with the format's extension. */
  lemma {:induction false} AutomaticFileName(channelUrl: Option<string>, format: Format, timestamp: string)
    requires IsTimestamp(timestamp)
    ensures var name := FileName(None, channelUrl, format, timestamp);
      && '/' !in name
      && EndsWith(name, Extension(format))
      && |name| > |Stem(channelUrl)| && name[..|Stem(channelUrl)| + 1] == Stem(channelUrl) + "_"
      && (EndsWith(name, ".xlsx") <==> format == Excel)
  {
    JoinedName(Stem(channelUrl), format, timestamp);
  }

  /** `{stem}_{timestamp}{extension}` for any non-empty stem without a slash. */
  lemma {:induction false} JoinedName(stem: string, format: Format, timestamp: string)
    requires stem != "" && '/' !in stem && IsTimestamp(timestamp)
    ensures var name := stem + "_" + timestamp + Extension(format);
      && '/' !in name
      && EndsWith(name, Extension(format))
      && |name| > |stem| && name[..|stem| + 1] == stem + "_"
      && (EndsWith(name, ".xlsx") <==> format == Excel)
  {
    var name := stem + "_" + timestamp + Extension(format);
    assert '/' !in timestamp by {
      forall k | 0 <= k < |timestamp| ensures timestamp[k] != '/' {
        if k != 8 {
          assert '0' <= timestamp[k] <= '9';
        }
      }
    }
    assert '/' !in Extension(format);
    assert '/' !in name by {
      assert name == (stem + "_") + timestamp + Extension(format);
    }
    assert name[|name| - |Extension(format)|..] == Extension(format);
    assert name[..|stem| + 1] == stem + "_";
    if format == Txt {
      assert name[|name| - 5] == timestamp[14];
    }
  }

  /** The table the spreadsheet receives: for dated items the URL, date and
      id columns (a null id becomes an empty cell), otherwise the URL column alone. */
  function ExportTable(items: seq<Item>): (t: Table)
    requires Uniform(items)
    ensures |t| >= 1 && t[0].header == UrlHeader && |t[0].cells| == |items|
    ensures forall i :: 0 <= i < |items| ==> t[0].cells[i] == Some(items[i].url)
    ensures items != [] && items[0].Dated? ==>
      && |t| == 3 && t[1].header == DateHeader && t[2].header == IdHeader
      && |t[1].cells| == |items| && |t[2].cells| == |items|
      && forall i :: 0 <= i < |items| ==> t[1].cells[i] == Some(items[i].uploadDate) && t[2].cells[i] == items[i].videoId
    ensures !(items != [] && items[0].Dated?) ==> |t| == 1
  {
    var urls := Column(UrlHeader, seq(|items|, i requires 0 <= i < |items| => Some(items[i].url)));
    if items != [] && items[0].Dated? then
      [ urls,
        Column(DateHeader, seq(|items|, i requires 0 <= i < |items| => Some(items[i].uploadDate))),
        Column(IdHeader, seq(|items|, i requires 0 <= i < |items| => items[i].videoId)) ]
    else [urls]
  }

  /** The text format of a URL list: each URL followed by a newline. */
  function UrlText(urls: seq<string>): (r: string)
    ensures r == "" <==> urls == []
    ensures r != "" ==> r[|r| - 1] == '\n'
  {
    if urls == [] then "" else urls[0] + "\n" + UrlText(urls[1..])
  }

  /** The lines of a text: the pieces between newlines, a final newline
      ending the last line rather than starting an empty one. */
  function Lines(s: string): seq<string>
    decreases |s|
  {
    if s == "" then []
    else
      var line := TakeUntil(s, '\n');
      if |line| == |s| then [line] else [line] + Lines(s[|line| + 1..])
  }

  lemma TakeUntilOfLine(line: string, rest: string)
    requires '\n' !in line
    ensures TakeUntil(line + "\n" + rest, '\n') == line
  {
    var s := line + "\n" + rest;
    assert s[|line|] == '\n';
    assert forall k :: 0 <= k < |line| ==> s[k] == line[k];
  }

  /** Reading the lines of a written URL list gives the list back, as long
      as no URL holds a newline. */
  lemma {:induction false} UrlTextRoundTrip(urls: seq<string>)
    requires forall i :: 0 <= i < |urls| ==> '\n' !in urls[i]
    ensures Lines(UrlText(urls)) == urls
  {
    if urls != [] {
      var rest := UrlText(urls[1..]);
      var s := urls[0] + "\n" + rest;
      TakeUntilOfLine(urls[0], rest);
      assert s[|urls[0]| + 1..] == rest;
      UrlTextRoundTrip(urls[1..]);
    }
  }

  /** The plain-text file of a URL-only scrape reads back as exactly the
      scraped URLs, in order. */
  lemma {:induction false} PlainFileRoundTrip(items: seq<Item>)
    requires forall i :: 0 <= i < |items| ==> '\n' !in items[i].url
    ensures Lines(UrlText(Urls(items))) == Urls(items)
    ensures |Lines(UrlText(Urls(items)))| == |items|
  {
    UrlTextRoundTrip(Urls(items));
  }

  lemma UrlHeaderFirst(t: Table)
    requires |t| >= 1 && t[0].header == UrlHeader
    ensures FirstMatch(t, 0, UrlHeaderAt)
  {
    assert Lower(UrlHeader) == "url";
    assert OccursAt(Lower(UrlHeader), "url", 0);
  }

  lemma IdHeaderThird(t: Table)
    requires |t| == 3 && t[0].header == UrlHeader && t[1].header == DateHeader && t[2].header == IdHeader
    ensures FirstMatch(t, 2, IdHeaderAt)
  {
    assert Lower(IdHeader)[2..4] == "id";
    assert OccursAt(Lower(IdHeader), "id", 2);
    assert Lower(UrlHeader) == "url";
    assert !Contains(Lower(UrlHeader), "id") by {
      forall i: nat | i <= 3 ensures !OccursAt("url", "id", i) {
        if i + 2 <= 3 {
          assert "url"[i] != 'i';
          assert "url"[i..i + 2][0] == "url"[i];
        }
      }
    }
    assert !Contains(Lower(UrlHeader), "video");
    assert Lower(DateHeader) == DateHeader;
    assert !Contains(Lower(DateHeader), "id") by {
      forall i: nat | i <= |DateHeader| ensures !OccursAt(DateHeader, "id", i) {
        if i + 2 <= |DateHeader| {
          assert DateHeader[i] != 'i';
        }
      }
    }
    assert !Contains(Lower(DateHeader), "video") by {
      forall i: nat | i <= |DateHeader| ensures !OccursAt(DateHeader, "video", i) {
      }
    }
  }

  /** A spreadsheet written by the scraper and read back as the exclusion
      file excludes every exported video: the id of each exported watch URL,
      and each exported id of eleven characters. */
  lemma {:induction false} ExportedVideosAreExcluded(items: seq<Item>, i: nat)
    requires Uniform(items) && i < |items|
    ensures var loaded := LoadExistingVideos(Sheet(ExportTable(items)));
      && (forall id :: IsVideoId(id) && items[i].url == WatchUrl(id) ==> id in loaded)
      && ((items[i].Dated? && items[i].videoId.Some? && |Strip(items[i].videoId.value)| == IdLength)
          ==> Strip(items[i].videoId.value) in loaded)
  {
    var t := ExportTable(items);
    var loaded := LoadExistingVideos(Sheet(t));
    UrlHeaderFirst(t);
    forall id | IsVideoId(id) && items[i].url == WatchUrl(id) ensures id in loaded {
      WatchUrlRoundTrip(id);
      assert UrlCellId(t[0].cells[i]) == Some(id);
    }
    if items[i].Dated? && items[i].videoId.Some? && |Strip(items[i].videoId.value)| == IdLength {
      IdHeaderThird(t);
      assert IdCellId(t[2].cells[i]) == Some(Strip(items[i].videoId.value));
    }
  }
}

=== FILE: progress.dfy ===
/** Progress stages and events, and the integer arithmetic of the
    percentages the scraper reports: the heartbeat during the backend call
    and the interpolation across the entry walk. */
module Progress {

  /** Every stage name the scraper and the web layer report. */
  datatype Stage =
    | Init | ReadingExclude | Starting | Connecting | Fetching | Parsing | Extracting
    | Saving | Completed | Error
  {
    predicate IsTerminal() {
      this == Completed || this == Error
    }
  }

  /** One progress report of the scraper: stage, percent, and the current
      and total counts. */
  datatype Event = Event(stage: Stage, percent: int, current: int, total: int)

  /** The heartbeat's percent range. */
  const HeartbeatBase: int := 15
  const HeartbeatMax: int := 25

  /** The walk's percent range. */
  const WalkBase: int := 30
  const WalkSpan: int := 55

  /** The percent the heartbeat reports on its `k`-th tick (from 0). */
  function HeartbeatPercent(k: nat): (p: int)
    ensures HeartbeatBase <= p <= HeartbeatMax
    ensures k <= HeartbeatMax - HeartbeatBase ==> p == HeartbeatBase + k
    ensures k >= HeartbeatMax - HeartbeatBase ==> p == HeartbeatMax
  {
    if HeartbeatBase + k < HeartbeatMax then HeartbeatBase + k else HeartbeatMax
  }

  /** The event of the `k`-th heartbeat tick. */
  function HeartbeatEvent(k: nat): (e: Event)
    ensures e.stage == Fetching && e.current == 0 && e.total == 0
    ensures HeartbeatBase <= e.percent <= HeartbeatMax
    ensures e.percent == HeartbeatPercent(k)
  {
    Event(Fetching, HeartbeatPercent(k), 0, 0)
  }

  /** The heartbeat never goes back: a later tick reports at least the
      percent of an earlier one. */
  lemma HeartbeatMonotone(j: nat, k: nat)
    requires j <= k
    ensures HeartbeatPercent(j) <= HeartbeatPercent(k)
  {
  }

  /** The events of the first `n` heartbeat ticks. */
  function Heartbeats(n: nat): (r: seq<Event>)
    ensures |r| == n
    ensures forall k :: 0 <= k < n ==> r[k] == HeartbeatEvent(k)
  {
    seq(n, k requires 0 <= k < n => HeartbeatEvent(k))
  }

  /** The walk percent after `processed` non-null entries of `total`:
      30 plus the floor of processed * 55 / total. */
  function WalkPercent(processed: nat, total: nat): (p: int)
    requires 0 < total && processed <= total
    ensures WalkBase <= p <= WalkBase + WalkSpan
    ensures processed == total ==> p == WalkBase + WalkSpan
  {
    MulMonotone(processed, total, WalkSpan);
    DivBounded(processed * WalkSpan, total * WalkSpan, total);
    MulDiv(WalkSpan, total);
    WalkBase + processed * WalkSpan / total
  }

  lemma MulMonotone(a: nat, b: nat, k: nat)
    requires a <= b
    ensures a * k <= b * k
  {
    assert b * k == a * k + (b - a) * k;
  }

  lemma MulDiv(k: nat, d: nat)
    requires 0 < d
    ensures d * k / d == k
  {
    var q := d * k / d;
    DivFloor(d * k, d);
    MulCancel(d, q, k + 1);
    MulCancel(d, k, q + 1);
  }

  /** The walk percent is 30 plus the largest whole step `s` with
      `s * total <= processed * 55`: the floor of processed * 55 / total. */
  lemma WalkPercentFloor(processed: nat, total: nat)
    requires 0 < total && processed <= total
    ensures var s := WalkPercent(processed, total) - WalkBase;
      s * total <= processed * WalkSpan < (s + 1) * total
  {
    var q := processed * WalkSpan / total;
    DivFloor(processed * WalkSpan, total);
    assert WalkPercent(processed, total) - WalkBase == q;
  }

  /** Integer division rounds down: `a / d` is the largest `q` with
      `q * d <= a`. */
  lemma DivFloor(a: nat, d: nat)
    requires 0 < d
    ensures (a / d) * d <= a < (a / d + 1) * d
  {
  }

  lemma DivBounded(a: nat, b: nat, d: nat)
    requires 0 < d && a <= b
    ensures a / d <= b / d
  {
    assert d * (a / d) <= a;
    assert b < d * (b / d + 1);
    MulCancel(d, a / d, b / d + 1);
  }

  lemma MulCancel(d: nat, x: int, y: int)
    requires 0 < d && d * x < d * y
    ensures x < y
  {
  }

  /** The walk percent never decreases as more entries are processed. */
  lemma {:induction false} WalkPercentMonotone(p: nat, q: nat, total: nat)
    requires 0 < total && p <= q <= total
    ensures WalkPercent(p, total) <= WalkPercent(q, total)
  {
    assert p * WalkSpan <= q * WalkSpan;
    DivBounded(p * WalkSpan, q * WalkSpan, total);
  }

  /** A walk event is emitted for the `saved`-th kept item when `saved` is
      a multiple of five, equals the total, or is at most ten. */
  predicate ShouldEmit(saved: nat, total: nat) {
    saved % 5 == 0 || saved == total || saved <= 10
  }

  /** Percent values that never decrease along a sequence of events. */
  ghost predicate PercentsNonDecreasing(es: seq<Event>) {
    forall i, j :: 0 <= i < j < |es| ==> es[i].percent <= es[j].percent
  }

  /** Every event's current count is within its total. */
  ghost predicate CountsWithinTotal(es: seq<Event>) {
    forall i :: 0 <= i < |es| ==> 0 <= es[i].current <= es[i].total
  }

  lemma {:induction false} HeartbeatsWellFormed(n: nat)
    ensures PercentsNonDecreasing(Heartbeats(n)) && CountsWithinTotal(Heartbeats(n))
  {
    var hs := Heartbeats(n);
    forall i, j | 0 <= i < j < |hs| ensures hs[i].percent <= hs[j].percent {
      HeartbeatMonotone(i, j);
    }
  }
}

=== FILE: scrape.dfy ===
/** `scrape_channel` end to end, with the backend's answers given as
    inputs: the exclusion set, the fixed progress prelude, the heartbeat,
    the under-count fallback, the walk and the closing event. */
module Scrape {
  import opened Values
  import opened Exclusion
  import opened Entries
  import opened Progress
  import opened Walk

  type Positive = n: nat | n > 0 witness 1

  /** The default count limits of the scraper's configuration. */
  const DefaultMaxVideos: Positive := 300
  const DefaultMinVideos: Positive := 200

  datatype Config = Config(maxVideos: Positive, minVideos: Positive)

  /** The scraper's constructor: a zero argument means "use the default". */
  function NewConfig(maxArg: nat, minArg: nat): (c: Config)
    ensures c.maxVideos == (if maxArg == 0 then DefaultMaxVideos else maxArg)
    ensures c.minVideos == (if minArg == 0 then DefaultMinVideos else minArg)
  {
    Config(if maxArg == 0 then DefaultMaxVideos else maxArg, if minArg == 0 then DefaultMinVideos else minArg)
  }

  /** What one backend call returned: no information at all, or a list of
      entry slots (null slots included); `lazy` marks a list that arrived
      as a generator and had to be materialised. */
  datatype Info = NoInfo | Info(entries: seq<Option<Entry>>, lazy: bool)

  function Min(a: nat, b: nat): nat {
    if a <= b then a else b
  }

  function Max(a: nat, b: nat): nat {
    if a <= b then b else a
  }

  /** The entries the walk uses, and whether the fallback call was made. */
  datatype Choice = Choice(entries: seq<Option<Entry>>, fallbackTried: bool)

  /** The under-count policy: the fallback is consulted only when the first
      call returned fewer than `minVideos` entries, and its entries replace
      the first ones only when strictly more numerous. */
  function ChooseEntries(primary: seq<Option<Entry>>, fallback: Info, minVideos: nat): (c: Choice)
    ensures c.fallbackTried <==> |primary| < minVideos
    ensures c.entries == primary || (c.fallbackTried && fallback.Info? && c.entries == fallback.entries)
    ensures c.entries != primary ==> |c.entries| > |primary|
    ensures c.fallbackTried && fallback.Info? ==> |c.entries| == Max(|primary|, |fallback.entries|)
    ensures !c.fallbackTried || fallback.NoInfo? ==> c.entries == primary
  {
    if |primary| < minVideos then
      match fallback
      case Info(more, _) => Choice(if |more| > |primary| then more else primary, true)
      case NoInfo => Choice(primary, true)
    else Choice(primary, false)
  }

  /** What a scrape produced: the items, every progress event in order, and
      whether the fallback call was made. */
  datatype Listing = Listing(items: seq<Item>, events: seq<Event>, fallbackTried: bool)

  /** The exclusion set: empty when no exclusion file was given. */
  function ExclusionSet(exclude: Option<Source>): (s: set<string>)
    ensures exclude.None? ==> s == {}
    ensures exclude.Some? ==> s == LoadExistingVideos(exclude.value)
    ensures forall x :: x in s ==> |x| == 11
  {
    match exclude
    case None => {}
    case Some(src) => LoadExistingVideos(src)
  }

  /** The events before the backend call: reading the exclusion file (a
      second time when it yielded ids), connecting and fetching. */
  function Opening(fileGiven: bool, idsFound: bool): (r: seq<Event>)
    ensures |r| >= 2
    ensures forall i :: 0 <= i < |r| ==> 5 <= r[i].percent <= HeartbeatBase && r[i].current == 0 && r[i].total == 0
    ensures PercentsNonDecreasing(r)
    ensures |r| == 2 + (if fileGiven then (if idsFound then 2 else 1) else 0)
    ensures forall i :: 0 <= i < |r| - 2 ==> r[i] == Event(ReadingExclude, 5, 0, 0)
    ensures r[|r| - 2] == Event(Connecting, 10, 0, 0) && r[|r| - 1] == Event(Fetching, HeartbeatBase, 0, 0)
  {
    var reading := Event(ReadingExclude, 5, 0, 0);
    var ex :=
      if fileGiven then [reading] + (if idsFound then [reading] else [])
      else [];
    ex + [Event(Connecting, 10, 0, 0), Event(Fetching, HeartbeatBase, 0, 0)]
  }

  /** The events before the backend answers: the opening events and the
      heartbeat ticks that fired while the call was outstanding. */
  function Prelude(fileGiven: bool, idsFound: bool, beats: nat): (r: seq<Event>)
    ensures forall i :: 0 <= i < |r| ==> 5 <= r[i].percent <= HeartbeatMax
    ensures PercentsNonDecreasing(r) && CountsWithinTotal(r)
    ensures r == Opening(fileGiven, idsFound) + Heartbeats(beats)
  {
    var o := Opening(fileGiven, idsFound);
    var hs := Heartbeats(beats);
    HeartbeatsWellFormed(beats);
    ConcatNonDecreasing(o, hs);
    ConcatCountsWithinTotal(o, hs);
    o + hs
  }

  /** The events after the backend answered with `count` entries. */
  function Parsed(lazy: bool, count: nat, maxVideos: Positive): (r: seq<Event>)
    ensures forall i :: 0 <= i < |r| ==> HeartbeatMax <= r[i].percent <= WalkBase
    ensures PercentsNonDecreasing(r) && CountsWithinTotal(r)
    ensures |r| >= 1 && r[|r| - 1] == Event(Parsing, WalkBase, 0, Min(count, maxVideos))
    ensures |r| == 2 <==> lazy
    ensures lazy ==> r[0] == Event(Parsing, HeartbeatMax, 0, 0)
  {
    (if lazy then [Event(Parsing, HeartbeatMax, 0, 0)] else []) + [Event(Parsing, WalkBase, 0, Min(count, maxVideos))]
  }

  /** Everything reported up to the walk. */
  lemma {:induction false} HeadWellFormed(fileGiven: bool, idsFound: bool, beats: nat, lazy: bool, count: nat, maxVideos: Positive)
    ensures var h := Prelude(fileGiven, idsFound, beats) + Parsed(lazy, count, maxVideos);
      && PercentsNonDecreasing(h) && CountsWithinTotal(h)
      && forall i :: 0 <= i < |h| ==> 5 <= h[i].percent <= WalkBase
  {
    var a := Prelude(fileGiven, idsFound, beats);
    var b := Parsed(lazy, count, maxVideos);
    ConcatNonDecreasing(a, b);
    ConcatCountsWithinTotal(a, b);
    var h := a + b;
    forall i | 0 <= i < |h| ensures 5 <= h[i].percent <= WalkBase {
      if i < |a| {
        assert h[i] == a[i];
      } else {
        assert h[i] == b[i - |a|];
      }
    }
  }

  /** The closing event of a walk that kept `n` items. */
  function Finished(n: nat): (e: Event)
    ensures e.stage == Extracting && e.current == n && e.total == n
    ensures n > 0 ==> e.percent == WalkPercent(n, n)
  {
    Event(Extracting, WalkBase + WalkSpan, n, n)
  }

  /** The walk context for the chosen entries. */
  function WalkContext(cfg: Config, entries: seq<Option<Entry>>, exclusion: set<string>, includeDate: bool, codec: DateCodec): Context {
    Context(Min(|entries|, cfg.maxVideos), exclusion, includeDate, codec)
  }

  /** The scrape once the exclusion file, if any, has been read into
      `exclusion`. With no information, or no entries even after the
      fallback, the result is empty; otherwise it is the walk over at most
      `maxVideos` entries, closed by the `extracting` event at 85. */
  function ScrapeWith(
    cfg: Config, includeDate: bool, fileGiven: bool, exclusion: set<string>,
    primary: Info, fallback: Info, beats: nat, codec: DateCodec): (r: Listing)
    ensures primary.NoInfo? ==> r.items == [] && !r.fallbackTried
    ensures primary.Info? ==> (r.fallbackTried <==> |primary.entries| < cfg.minVideos)
  {
    var pre := Prelude(fileGiven, exclusion != {}, beats);
    match primary
    case NoInfo => Listing([], pre, false)
    case Info(es, lazy) =>
      var parsed := pre + Parsed(lazy, |es|, cfg.maxVideos);
      var choice := ChooseEntries(es, fallback, cfg.minVideos);
      if choice.entries == [] then Listing([], parsed, choice.fallbackTried)
      else
        var ctx := WalkContext(cfg, choice.entries, exclusion, includeDate, codec);
        var w := WalkOver(choice.entries[..ctx.total], ctx);
        Listing(w.items, parsed + w.events + [Finished(|w.items|)], choice.fallbackTried)
  }

  /** The whole scrape: read the exclusion file when one is given, then
      list the channel. */
  function ScrapeChannel(
    cfg: Config, includeDate: bool, exclude: Option<Source>,
    primary: Info, fallback: Info, beats: nat, codec: DateCodec): (r: Listing)
    ensures primary.NoInfo? ==> r.items == [] && !r.fallbackTried
    ensures primary.Info? ==> (r.fallbackTried <==> |primary.entries| < cfg.minVideos)
  {
    ScrapeWith(cfg, includeDate, exclude.Some?, ExclusionSet(exclude), primary, fallback, beats, codec)
  }

  /** The items are exactly the accepted items of the first `maxVideos`
      chosen entries, in order; nothing when there were no entries. */
  lemma {:induction false} ScrapeItems(
    cfg: Config, includeDate: bool, exclude: Option<Source>,
    primary: Info, fallback: Info, beats: nat, codec: DateCodec)
    requires primary.Info?
    ensures var choice := ChooseEntries(primary.entries, fallback, cfg.minVideos);
      var ctx := WalkContext(cfg, choice.entries, ExclusionSet(exclude), includeDate, codec);
      ScrapeChannel(cfg, includeDate, exclude, primary, fallback, beats, codec).items
        == Accepted(choice.entries[..ctx.total], ctx)
  {
    var choice := ChooseEntries(primary.entries, fallback, cfg.minVideos);
    var ctx := WalkContext(cfg, choice.entries, ExclusionSet(exclude), includeDate, codec);
    if choice.entries != [] {
      WalkItemsAreAccepted(choice.entries[..ctx.total], ctx);
    }
  }

  /** The events of a scrape, part by part: the opening and heartbeat
      events, then (when the backend answered) the parsing events, then
      (when entries were chosen) the walk's events and the closing event. */
  lemma {:induction false} ScrapeWithEvents(
    cfg: Config, includeDate: bool, fileGiven: bool, exclusion: set<string>,
    primary: Info, fallback: Info, beats: nat, codec: DateCodec)
    ensures var r := ScrapeWith(cfg, includeDate, fileGiven, exclusion, primary, fallback, beats, codec);
      primary.NoInfo? ==> r.events == Prelude(fileGiven, exclusion != {}, beats)
    ensures var r := ScrapeWith(cfg, includeDate, fileGiven, exclusion, primary, fallback, beats, codec);
      primary.Info? && ChooseEntries(primary.entries, fallback, cfg.minVideos).entries == [] ==>
        r.events == Prelude(fileGiven, exclusion != {}, beats) + Parsed(primary.lazy, |primary.entries|, cfg.maxVideos)
    ensures var r := ScrapeWith(cfg, includeDate, fileGiven, exclusion, primary, fallback, beats, codec);
      primary.Info? && ChooseEntries(primary.entries, fallback, cfg.minVideos).entries != [] ==>
        var choice := ChooseEntries(primary.entries, fallback, cfg.minVideos);
        var w := WalkOver(choice.entries[..WalkContext(cfg, choice.entries, exclusion, includeDate, codec).total],
          WalkContext(cfg, choice.entries, exclusion, includeDate, codec));
        && r.events == Prelude(fileGiven, exclusion != {}, beats) + Parsed(primary.lazy, |primary.entries|, cfg.maxVideos)
          + w.events + [Finished(|w.items|)]
        && r.items == w.items
  {
  }

  /** The walk part of a scrape's events, for a given exclusion set: an
      event for exactly the kept items the emission rule selects, in order
      and within their bounds. */
  lemma {:induction false} ScrapeWithWalkEvents(
    cfg: Config, includeDate: bool, fileGiven: bool, exclusion: set<string>,
    primary: Info, fallback: Info, beats: nat, codec: DateCodec)
    requires primary.Info? && ChooseEntries(primary.entries, fallback, cfg.minVideos).entries != []
    ensures var r := ScrapeWith(cfg, includeDate, fileGiven, exclusion, primary, fallback, beats, codec);
      var choice := ChooseEntries(primary.entries, fallback, cfg.minVideos);
      var ctx := WalkContext(cfg, choice.entries, exclusion, includeDate, codec);
      var w := WalkOver(choice.entries[..ctx.total], ctx);
      && r.events == Prelude(fileGiven, exclusion != {}, beats) + Parsed(primary.lazy, |primary.entries|, cfg.maxVideos)
        + w.events + [Finished(|r.items|)]
      && r.items == w.items
      && EmitsExactly(w, ctx) && EventsOrdered(w.events) && EventsBounded(w, ctx)
  {
    ScrapeWithEvents(cfg, includeDate, fileGiven, exclusion, primary, fallback, beats, codec);
    var choice := ChooseEntries(primary.entries, fallback, cfg.minVideos);
    var ctx := WalkContext(cfg, choice.entries, exclusion, includeDate, codec);
    WalkEventInvariants(choice.entries[..ctx.total], ctx);
  }

  /** What a scrape reports: `ScrapeWithEvents` for the loaded exclusion
      set, where the walk's events are emitted exactly for the kept items
      the emission rule selects, in order and within their bounds. */
  lemma {:induction false} ScrapeEvents(
    cfg: Config, includeDate: bool, exclude: Option<Source>,
    primary: Info, fallback: Info, beats: nat, codec: DateCodec)
    ensures var r := ScrapeChannel(cfg, includeDate, exclude, primary, fallback, beats, codec);
      primary.NoInfo? ==> r.events == Prelude(exclude.Some?, ExclusionSet(exclude) != {}, beats)
    ensures var r := ScrapeChannel(cfg, includeDate, exclude, primary, fallback, beats, codec);
      primary.Info? && ChooseEntries(primary.entries, fallback, cfg.minVideos).entries == [] ==>
        r.events == Prelude(exclude.Some?, ExclusionSet(exclude) != {}, beats) + Parsed(primary.lazy, |primary.entries|, cfg.maxVideos)
        && r.items == []
    ensures var r := ScrapeChannel(cfg, includeDate, exclude, primary, fallback, beats, codec);
      primary.Info? && ChooseEntries(primary.entries, fallback, cfg.minVideos).entries != [] ==>
        var choice := ChooseEntries(primary.entries, fallback, cfg.minVideos);
        var ctx := WalkContext(cfg, choice.entries, ExclusionSet(exclude), includeDate, codec);
        var w := WalkOver(choice.entries[..ctx.total], ctx);
        && r.events == Prelude(exclude.Some?, ExclusionSet(exclude) != {}, beats) + Parsed(primary.lazy, |primary.entries|, cfg.maxVideos)
          + w.events + [Finished(|r.items|)]
        && r.items == w.items
        && EmitsExactly(w, ctx) && EventsOrdered(w.events) && EventsBounded(w, ctx)
  {
    var exclusion := ExclusionSet(exclude);
    ScrapeWithEvents(cfg, includeDate, exclude.Some?, exclusion, primary, fallback, beats, codec);
    if primary.Info? && ChooseEntries(primary.entries, fallback, cfg.minVideos).entries != [] {
      ScrapeWithWalkEvents(cfg, includeDate, exclude.Some?, exclusion, primary, fallback, beats, codec);
    }
  }

  /** Every item of a scrape has the shape the date flag asks for, so the
      list can be written out as one table. */
  lemma {:induction false} ScrapeItemsShaped(
    cfg: Config, includeDate: bool, exclude: Option<Source>,
    primary: Info, fallback: Info, beats: nat, codec: DateCodec)
    ensures var items := ScrapeChannel(cfg, includeDate, exclude, primary, fallback, beats, codec).items;
      Uniform(items) && forall i :: 0 <= i < |items| ==> (items[i].Dated? <==> includeDate)
  {
    if primary.Info? {
      var choice := ChooseEntries(primary.entries, fallback, cfg.minVideos);
      var ctx := WalkContext(cfg, choice.entries, ExclusionSet(exclude), includeDate, codec);
      ScrapeItems(cfg, includeDate, exclude, primary, fallback, beats, codec);
      AcceptedShape(choice.entries[..ctx.total], ctx);
    }
  }

  /** At most `maxVideos` items come out of a scrape. */
  lemma {:induction false} ScrapeBounded(
    cfg: Config, includeDate: bool, exclude: Option<Source>,
    primary: Info, fallback: Info, beats: nat, codec: DateCodec)
    ensures |ScrapeChannel(cfg, includeDate, exclude, primary, fallback, beats, codec).items| <= cfg.maxVideos
  {
  }

  lemma {:induction false} ConcatNonDecreasing(a: seq<Event>, b: seq<Event>)
    requires PercentsNonDecreasing(a) && PercentsNonDecreasing(b)
    requires forall i, j :: 0 <= i < |a| && 0 <= j < |b| ==> a[i].percent <= b[j].percent
    ensures PercentsNonDecreasing(a + b)
  {
    var c := a + b;
    forall i, j | 0 <= i < j < |c| ensures c[i].percent <= c[j].percent {
      if j < |a| {
        assert c[i] == a[i] && c[j] == a[j];
      } else if i >= |a| {
        assert c[i] == b[i - |a|] && c[j] == b[j - |a|];
      } else {
        assert c[i] == a[i] && c[j] == b[j - |a|];
      }
    }
  }

  lemma {:induction false} ConcatCountsWithinTotal(a: seq<Event>, b: seq<Event>)
    requires CountsWithinTotal(a) && CountsWithinTotal(b)
    ensures CountsWithinTotal(a + b)
  {
    var c := a + b;
    forall i | 0 <= i < |c| ensures 0 <= c[i].current <= c[i].total {
      if i < |a| {
        assert c[i] == a[i];
      } else {
        assert c[i] == b[i - |a|];
      }
    }
  }

  /** The walk's events followed by the closing event: percents between 30
      and 85 that never decrease, and counts within their totals. */
  lemma {:induction false} WalkTailWellFormed(slots: seq<Option<Entry>>, ctx: Context)
    requires 0 < ctx.total && |slots| <= ctx.total
    ensures var w := WalkOver(slots, ctx);
      var t := w.events + [Finished(|w.items|)];
      && PercentsNonDecreasing(t) && CountsWithinTotal(t)
      && forall i :: 0 <= i < |t| ==> WalkBase <= t[i].percent <= WalkBase + WalkSpan
  {
    var w := WalkOver(slots, ctx);
    WalkEventInvariants(slots, ctx);
    var t := w.events + [Finished(|w.items|)];
    assert PercentsNonDecreasing(w.events);
    ConcatNonDecreasing(w.events, [Finished(|w.items|)]);
    assert CountsWithinTotal(w.events);
    ConcatCountsWithinTotal(w.events, [Finished(|w.items|)]);
  }

  /** Every scrape reports percents that never go back, all between 5 and
      85, and current counts that never exceed their totals. */
  lemma {:induction false} ScrapeEventsWellFormed(
    cfg: Config, includeDate: bool, exclude: Option<Source>,
    primary: Info, fallback: Info, beats: nat, codec: DateCodec)
    ensures var r := ScrapeChannel(cfg, includeDate, exclude, primary, fallback, beats, codec);
      && PercentsNonDecreasing(r.events)
      && CountsWithinTotal(r.events)
      && forall i :: 0 <= i < |r.events| ==> 5 <= r.events[i].percent <= WalkBase + WalkSpan
  {
    ScrapeWithEventsWellFormed(cfg, includeDate, exclude.Some?, ExclusionSet(exclude), primary, fallback, beats, codec);
  }

  lemma {:induction false} ScrapeWithEventsWellFormed(
    cfg: Config, includeDate: bool, fileGiven: bool, exclusion: set<string>,
    primary: Info, fallback: Info, beats: nat, codec: DateCodec)
    ensures var r := ScrapeWith(cfg, includeDate, fileGiven, exclusion, primary, fallback, beats, codec);
      && PercentsNonDecreasing(r.events)
      && CountsWithinTotal(r.events)
      && forall i :: 0 <= i < |r.events| ==> 5 <= r.events[i].percent <= WalkBase + WalkSpan
  {
    var r := ScrapeWith(cfg, includeDate, fileGiven, exclusion, primary, fallback, beats, codec);
    ScrapeWithEvents(cfg, includeDate, fileGiven, exclusion, primary, fallback, beats, codec);
    if primary.Info? {
      var head := Prelude(fileGiven, exclusion != {}, beats) + Parsed(primary.lazy, |primary.entries|, cfg.maxVideos);
      HeadWellFormed(fileGiven, exclusion != {}, beats, primary.lazy, |primary.entries|, cfg.maxVideos);
      var choice := ChooseEntries(primary.entries, fallback, cfg.minVideos);
      if choice.entries != [] {
        var ctx := WalkContext(cfg, choice.entries, exclusion, includeDate, codec);
        WalkCaseWellFormed(r.events, head, choice.entries[..ctx.total], ctx);
      }
    }
  }

  /** A head of events between 5% and 30% followed by a walk and its
      closing event is well formed. */
  lemma {:induction false} WalkCaseWellFormed(es: seq<Event>, head: seq<Event>, slots: seq<Option<Entry>>, ctx: Context)
    requires 0 < ctx.total && |slots| <= ctx.total
    requires PercentsNonDecreasing(head) && CountsWithinTotal(head)
    requires forall i :: 0 <= i < |head| ==> 5 <= head[i].percent <= WalkBase
    requires es == head + WalkOver(slots, ctx).events + [Finished(|WalkOver(slots, ctx).items|)]
    ensures PercentsNonDecreasing(es) && CountsWithinTotal(es)
    ensures forall i :: 0 <= i < |es| ==> 5 <= es[i].percent <= WalkBase + WalkSpan
  {
    var w := WalkOver(slots, ctx);
    var tail := w.events + [Finished(|w.items|)];
    WalkTailWellFormed(slots, ctx);
    TwoPartsWellFormed(head, tail);
    assert es == head + tail;
  }

  lemma {:induction false} TwoPartsWellFormed(head: seq<Event>, tail: seq<Event>)
    requires PercentsNonDecreasing(head) && CountsWithinTotal(head)
    requires PercentsNonDecreasing(tail) && CountsWithinTotal(tail)
    requires forall i :: 0 <= i < |head| ==> 5 <= head[i].percent <= WalkBase
    requires forall i :: 0 <= i < |tail| ==> WalkBase <= tail[i].percent <= WalkBase + WalkSpan
    ensures var c := head + tail;
      && PercentsNonDecreasing(c) && CountsWithinTotal(c)
      && forall i :: 0 <= i < |c| ==> 5 <= c[i].percent <= WalkBase + WalkSpan
  {
    ConcatNonDecreasing(head, tail);
    ConcatCountsWithinTotal(head, tail);
    var c := head + tail;
    forall i | 0 <= i < |c| ensures 5 <= c[i].percent <= WalkBase + WalkSpan {
      if i < |head| {
        assert c[i] == head[i];
      } else {
        assert c[i] == tail[i - |head|];
      }
    }
  }

  /** A scrape that found entries ends with the event ('extracting', 85, n, n)
      for its n items. */
  lemma {:induction false} ScrapeEndsAtEightyFive(
    cfg: Config, includeDate: bool, exclude: Option<Source>,
    primary: Info, fallback: Info, beats: nat, codec: DateCodec)
    requires primary.Info? && ChooseEntries(primary.entries, fallback, cfg.minVideos).entries != []
    ensures var r := ScrapeChannel(cfg, includeDate, exclude, primary, fallback, beats, codec);
      r.events[|r.events| - 1] == Event(Extracting, 85, |r.items|, |r.items|)
  {
  }
}

=== FILE: store.dfy ===
/** The web layer's task-keyed progress store (`progress_store` with
    `update_progress`), the result attachment and polling of the scrape
    routes, the request check of `/api/scrape`, and `allowed_file`. The
    store is a map used by one writer at a time. */
module Store {
  import opened Values
  import opened Text
  import opened Progress
  import opened Entries

  type TaskId = string

  /** The six fields every update writes. */
  datatype Snapshot = Snapshot(stage: Stage, percent: int, message: string, current: int, total: int, eta: Option<int>)

  /** The payload a finished task carries. */
  datatype TaskResult =
    | Succeeded(count: nat, targetMin: int, targetMax: int, filename: string, filepath: string, urls: seq<string>)
    | Failed(error: string)

  /** One task's entry: its latest snapshot and, once attached, its result. */
  datatype Slot = Slot(snapshot: Snapshot, result: Option<TaskResult>)

  type ProgressStore = map<TaskId, Slot>

  /** The count targets the success payload reports. */
  const TargetMin: int := 200
  const TargetMax: int := 300

  /** At most this many sample URLs go into the success payload. */
  const SampleSize: nat := 10

  /** `update_progress`: the task's entry becomes exactly the given
      snapshot, with no result, whether or not the task was there; no other
      task changes. */
  function UpdateProgress(store: ProgressStore, id: TaskId, snap: Snapshot): (r: ProgressStore)
    ensures r.Keys == store.Keys + {id}
    ensures r[id] == Slot(snap, None)
    ensures forall k :: k in store && k != id ==> r[k] == store[k]
  {
    store[id := Slot(snap, None)]
  }

  /** Attaching a result: only a task still in the store receives it, and
      its snapshot is kept. */
  function AttachResult(store: ProgressStore, id: TaskId, res: TaskResult): (r: ProgressStore)
    ensures r.Keys == store.Keys
    ensures id in store ==> r[id] == Slot(store[id].snapshot, Some(res))
    ensures forall k :: k in store && k != id ==> r[k] == store[k]
  {
    if id in store then store[id := store[id].(result := Some(res))] else store
  }

  /** The progress callback applied to a run of updates for one task. */
  function ApplyUpdates(store: ProgressStore, id: TaskId, updates: seq<Snapshot>): (r: ProgressStore)
    ensures updates == [] ==> r == store
    ensures updates != [] ==> r.Keys == store.Keys + {id} && r[id] == Slot(updates[|updates| - 1], None)
    ensures forall k :: k in store && k != id ==> k in r && r[k] == store[k]
  {
    if updates == [] then store
    else UpdateProgress(ApplyUpdates(store, id, updates[..|updates| - 1]), id, updates[|updates| - 1])
  }

  /** A finished task's entry can still be overwritten: nothing in the
      store protects the `completed` and `error` stages. */
  lemma TerminalStageNotProtected(store: ProgressStore, id: TaskId, snap: Snapshot)
    requires id in store && store[id].snapshot.stage.IsTerminal()
    ensures UpdateProgress(store, id, snap)[id].snapshot == snap
    ensures UpdateProgress(store, id, snap)[id].result == None
  {
  }

  /** The answer of the polling route. */
  datatype Reply = NotFound | Found(snapshot: Snapshot, result: Option<TaskResult>, resultShown: bool)

  function HttpStatus(r: Reply): int {
    if r.NotFound? then 404 else 200
  }

  /** `get_progress`: not found for an unknown task; otherwise a copy of the
      entry, which shows a `result` field (possibly null) in the terminal
      stages, and the store left as it was. */
  function GetProgress(store: ProgressStore, id: TaskId): (r: (Reply, ProgressStore))
    ensures r.1 == store
    ensures r.0.NotFound? <==> id !in store
    ensures HttpStatus(r.0) == 404 <==> id !in store
    ensures r.0.Found? ==> r.0.snapshot == store[id].snapshot && r.0.result == store[id].result
    ensures r.0.Found? ==> (r.0.resultShown <==> store[id].snapshot.stage.IsTerminal())
  {
    if id !in store then (NotFound, store)
    else
      var slot := store[id];
      (Found(slot.snapshot, slot.result, slot.snapshot.stage.IsTerminal()), store)
  }

  /** Polling is repeatable: a finished task is not cleaned up, so every
      later poll sees the same answer. */
  lemma {:induction false} PollingIsRepeatable(store: ProgressStore, id: TaskId)
    ensures GetProgress(GetProgress(store, id).1, id) == GetProgress(store, id)
  {
    assert GetProgress(store, id).1 == store;
  }

  /** The rightmost occurrence of `c` in `s`. */
  function LastIndexOf(s: string, c: char): (r: Option<nat>)
    ensures r.None? <==> c !in s
    ensures r.Some? ==> r.value < |s| && s[r.value] == c && c !in s[r.value + 1..]
  {
    if s == [] then None
    else if s[|s| - 1] == c then Some(|s| - 1)
    else
      var r := LastIndexOf(s[..|s| - 1], c);
      assert s == s[..|s| - 1] + [s[|s| - 1]];
      r
  }

  /** The extensions accepted for an exclusion upload. */
  const AllowedExtensions: set<string> := {"xlsx", "xls"}

  /** `allowed_file`: the name has a dot, and the text after the last dot,
      lower-cased, is an allowed extension. */
  function AllowedFile(name: string): (r: bool)
    ensures r ==> '.' in name
  {
    match LastIndexOf(name, '.')
    case None => false
    case Some(i) => Lower(name[i + 1..]) in AllowedExtensions
  }

  lemma LowerCharInvert(c: char, d: char)
    requires d == '.' || 'a' <= d <= 'z'
    requires LowerChar(c) == d
    ensures d == '.' ==> c == '.'
    ensures c != '.'  || d == '.'
  {
  }

  /** The last dot of a name that has a dot at `i` and none after it is at `i`. */
  lemma {:induction false} LastDotAt(name: string, i: nat)
    requires i < |name| && name[i] == '.'
    requires forall k :: i < k < |name| ==> name[k] != '.'
    ensures LastIndexOf(name, '.') == Some(i)
  {
    var r := LastIndexOf(name, '.');
    assert r.Some?;
    assert r.value >= i;
    assert name[r.value] == '.';
  }

  /** A name ending, case-insensitively, with a dot and a letter-only
      extension has that dot, no dot after it, and the extension after it. */
  lemma {:induction false} DotExtension(name: string, ext: string)
    requires ext != "" && forall k :: 0 <= k < |ext| ==> 'a' <= ext[k] <= 'z'
    requires EndsWith(Lower(name), "." + ext)
    ensures |ext| < |name| && name[|name| - |ext| - 1] == '.'
    ensures forall k :: |name| - |ext| - 1 < k < |name| ==> name[k] != '.'
    ensures Lower(name[|name| - |ext|..]) == ext
  {
    var i: nat := |name| - |ext| - 1;
    var tail := name[i + 1..];
    assert LowerChar(name[i]) == '.' && Lower(tail) == ext by {
      LowerSuffix(name, i);
      LowerCons(name[i..]);
      assert name[i..][1..] == tail;
      var both := [LowerChar(name[i])] + Lower(tail);
      assert both == "." + ext;
      assert both[0] == LowerChar(name[i]);
      assert both[1..] == Lower(tail);
      assert ("." + ext)[1..] == ext;
    }
    LowerCharInvert(name[i], '.');
    NoDotInLetters(tail, ext);
    forall k | i < k < |name| ensures name[k] != '.' {
      assert name[k] == tail[k - i - 1];
    }
  }

  /** Text that lower-cases to letters holds no dot. */
  lemma NoDotInLetters(t: string, ext: string)
    requires forall k :: 0 <= k < |ext| ==> 'a' <= ext[k] <= 'z'
    requires Lower(t) == ext
    ensures forall j :: 0 <= j < |t| ==> t[j] != '.'
  {
    forall j | 0 <= j < |t| ensures t[j] != '.' {
      LowerCharInvert(t[j], ext[j]);
    }
  }

  /** Having the extension `ext` (lower-case letters, no dot) at the end,
      case-insensitively, makes the name pass exactly when `ext` is allowed. */
  lemma {:induction false} SuffixDecides(name: string, ext: string)
    requires ext != "" && forall k :: 0 <= k < |ext| ==> 'a' <= ext[k] <= 'z'
    requires EndsWith(Lower(name), "." + ext)
    ensures LastIndexOf(name, '.') == Some(|name| - |ext| - 1)
    ensures AllowedFile(name) <==> ext in AllowedExtensions
  {
    DotExtension(name, ext);
    LastDotAt(name, |name| - |ext| - 1);
  }

  lemma LowerSuffix(s: string, i: nat)
    requires i <= |s|
    ensures Lower(s)[i..] == Lower(s[i..])
  {
  }

  lemma LowerCons(s: string)
    requires s != []
    ensures Lower(s) == [LowerChar(s[0])] + Lower(s[1..])
  {
  }

  /** Lower-cased, a name ends with the dot at `i` and the lower-cased
      text after it. */
  lemma {:induction false} DotSuffix(name: string, i: nat)
    requires i < |name| && name[i] == '.'
    ensures EndsWith(Lower(name), "." + Lower(name[i + 1..]))
  {
    LowerSuffix(name, i);
    LowerCons(name[i..]);
    assert name[i..][1..] == name[i + 1..];
  }

  /** The extension that lets a name pass is one of the two allowed ones. */
  lemma AllowedExtension(name: string)
    requires AllowedFile(name)
    ensures var i := LastIndexOf(name, '.').value;
      Lower(name[i + 1..]) == "xlsx" || Lower(name[i + 1..]) == "xls"
  {
  }

  lemma SuffixLiteral(s: string, ext: string)
    requires EndsWith(s, "." + ext) && (ext == "xlsx" || ext == "xls")
    ensures EndsWith(s, ".xlsx") || EndsWith(s, ".xls")
  {
    if ext == "xlsx" {
      assert "." + ext == ".xlsx";
    } else {
      assert "." + ext == ".xls";
    }
  }

  /** A name that passes ends, lower-cased, with a dot and the extension
      that let it pass. */
  lemma {:induction false} AllowedHasSuffix(name: string)
    requires AllowedFile(name)
    ensures EndsWith(Lower(name), ".xlsx") || EndsWith(Lower(name), ".xls")
  {
    var i := LastIndexOf(name, '.').value;
    DotSuffix(name, i);
    AllowedExtension(name);
    SuffixLiteral(Lower(name), Lower(name[i + 1..]));
  }

  /** `allowed_file` accepts a name exactly when, lower-cased, it ends with
      ".xlsx" or ".xls". */
  lemma {:induction false} AllowedFileBySuffix(name: string)
    ensures AllowedFile(name) <==> EndsWith(Lower(name), ".xlsx") || EndsWith(Lower(name), ".xls")
  {
    if EndsWith(Lower(name), ".xlsx") {
      SuffixDecides(name, "xlsx");
    } else if EndsWith(Lower(name), ".xls") {
      SuffixDecides(name, "xls");
    } else if AllowedFile(name) {
      AllowedHasSuffix(name);
    }
  }

  /** The request body of `/api/scrape`: form fields, or a JSON object
      whose fields may also be null. */
  datatype Body =
    | Form(formChannel: Option<string>, formIncludeDate: Option<string>)
    | Json(jsonChannel: Field<string>, jsonIncludeDate: Field<bool>)

  /** A scrape request: the name of the uploaded exclusion file, if a file
      part was sent, and the body. */
  datatype Request = Request(upload: Option<string>, body: Body)

  /** The answer of `/api/scrape`. */
  datatype Response =
    | Rejected        // 400: no channel reference
    | ServerError     // 500: the request could not be read
    | Accepted(id: TaskId, channelUrl: string, includeDate: bool, excludeFile: bool)

  /** The form's date flag: "true" in any letter case, and true when absent. */
  function FormIncludeDate(v: Option<string>): (b: bool)
    ensures v.None? ==> b
    ensures v.Some? ==> (b <==> |v.value| == 4 && Lower(v.value) == "true")
  {
    Lower(v.GetOr("true")) == "true"
  }

  /** The JSON date flag: `data.get('include_date', True)` read as a
      truth value, so true when absent and false when null. */
  function JsonIncludeDate(v: Field<bool>): (b: bool)
    ensures b <==> v.GetWithDefault(true) == Some(true)
  {
    match v
    case Absent => true
    case Null => false
    case Given(b) => b
  }

  /** Whether an upload is used as the exclusion file. */
  predicate UsesUpload(upload: Option<string>): (b: bool)
    ensures b <==> upload.Some? && (EndsWith(Lower(upload.value), ".xlsx") || EndsWith(Lower(upload.value), ".xls"))
  {
    if upload.Some? then
      AllowedFileBySuffix(upload.value);
      upload.value != "" && AllowedFile(upload.value)
    else false
  }

  /** `/api/scrape` up to starting the worker. The task is installed at 0%
      (then read-exclusion updates when an allowed file was uploaded); a
      blank channel reference, or one that cannot be read, removes the task
      again and no worker starts. */
  function HandleScrape(store: ProgressStore, id: TaskId, req: Request): (r: (ProgressStore, Response))
    ensures r.1.Accepted? ==> r.1.id == id && id in r.0 && r.0.Keys == store.Keys + {id}
    ensures r.1.Accepted? ==> r.1.channelUrl != "" && r.1.excludeFile == UsesUpload(req.upload)
    ensures r.1.Accepted? ==> r.0[id].snapshot.stage == (if UsesUpload(req.upload) then ReadingExclude else Init)
    ensures r.1.Accepted? ==> r.0[id].snapshot.percent == (if UsesUpload(req.upload) then 5 else 0) && r.0[id].result.None?
    ensures !r.1.Accepted? ==> id !in r.0 && r.0 == store - {id}
    ensures req.body.Form? ==>
      (r.1.Rejected? <==> forall k :: 0 <= k < |req.body.formChannel.GetOr("")| ==> IsSpace(req.body.formChannel.GetOr("")[k]))
    ensures req.body.Form? && r.1.Accepted? ==> r.1.includeDate == FormIncludeDate(req.body.formIncludeDate)
    ensures req.body.Form? ==> !r.1.ServerError?
    ensures req.body.Json? ==> (r.1.ServerError? <==> req.body.jsonChannel.Null?)
    ensures req.body.Json? ==>
      (r.1.Rejected? <==> (req.body.jsonChannel.Absent?
        || (req.body.jsonChannel.Given? && forall k :: 0 <= k < |req.body.jsonChannel.value| ==> IsSpace(req.body.jsonChannel.value[k]))))
    ensures req.body.Json? && r.1.Accepted? ==> r.1.includeDate == JsonIncludeDate(req.body.jsonIncludeDate)
    ensures r.1.Accepted? ==> r.1.channelUrl == Strip(match req.body
      case Form(c, _) => c.GetOr("")
      case Json(c, _) => c.value)
    ensures forall k :: k in store && k != id ==> k in r.0 && r.0[k] == store[k]
  {
    var s1 := UpdateProgress(store, id, Snapshot(Init, 0, "正在初始化...", 0, 0, None));
    var usesFile := UsesUpload(req.upload);
    var s2 :=
      if usesFile then
        UpdateProgress(
          UpdateProgress(s1, id, Snapshot(ReadingExclude, 2, "正在读取排重文件...", 0, 0, None)),
          id, Snapshot(ReadingExclude, 5, "已读取排重文件：" + req.upload.value, 0, 0, None))
      else s1;
    var channel: Option<string> :=
      match req.body
      case Form(c, _) => Some(c.GetOr(""))
      case Json(c, _) => c.GetWithDefault("");
    var includeDate :=
      match req.body
      case Form(_, d) => FormIncludeDate(d)
      case Json(_, d) => JsonIncludeDate(d);
    match channel
    case None => (s2 - {id}, ServerError)
    case Some(raw) =>
      var url := Strip(raw);
      if url == "" then (s2 - {id}, Rejected)
      else (s2, Accepted(id, url, includeDate, usesFile))
  }

  /** How the listing ended: with items, or with an error. */
  datatype Outcome = Listed(items: seq<Item>) | Raised(error: string)

  /** How saving the file ended. */
  datatype Saved = SavedAs(filename: string, filepath: string) | SaveRaised(error: string)

  /** The URLs of the first ten items. */
  function SampleUrls(items: seq<Item>): (r: seq<string>)
    ensures |r| <= SampleSize && |r| <= |items|
    ensures |r| == if |items| < SampleSize then |items| else SampleSize
    ensures forall i :: 0 <= i < |r| ==> r[i] == items[i].url
  {
    var n := if |items| < SampleSize then |items| else SampleSize;
    Urls(items[..n])
  }

  /** The failure path: the error stage at 0%, then the failure payload. */
  function Fail(store: ProgressStore, id: TaskId, error: string): (r: ProgressStore)
    ensures r.Keys == store.Keys + {id}
    ensures r[id] == Slot(Snapshot(Error, 0, "抓取失败：" + error, 0, 0, None), Some(Failed(error)))
    ensures forall k :: k in store && k != id ==> r[k] == store[k]
  {
    AttachResult(UpdateProgress(store, id, Snapshot(Error, 0, "抓取失败：" + error, 0, 0, None)), id, Failed(error))
  }

  /** The worker's first write. */
  const StartSnapshot: Snapshot := Snapshot(Starting, 1, "正在启动抓取任务...", 0, 0, None)

  /** The background worker `scrape_task`: the starting update, the
      scraper's own updates, then the terminal updates for the outcome. */
  function RunWorker(store: ProgressStore, id: TaskId, updates: seq<Snapshot>, outcome: Outcome, saved: Saved): (r: ProgressStore)
    ensures r.Keys == store.Keys + {id}
    ensures forall k :: k in store && k != id ==> r[k] == store[k]
    ensures r[id].snapshot.stage.IsTerminal()
  {
    var s1 := UpdateProgress(store, id, StartSnapshot);
    var s2 := ApplyUpdates(s1, id, updates);
    match outcome
    case Raised(e) => Fail(s2, id, e)
    case Listed(items) =>
      if items == [] then UpdateProgress(s2, id, Snapshot(Error, 0, "未抓取到任何视频链接", 0, 0, None))
      else
        var n := |items|;
        var s3 := UpdateProgress(s2, id, Snapshot(Saving, 90, "正在保存文件...", n, n, None));
        match saved
        case SaveRaised(e) => Fail(s3, id, e)
        case SavedAs(name, path) =>
          var s4 := UpdateProgress(s3, id, Snapshot(Completed, 100, "抓取完成！", n, n, Some(0)));
          AttachResult(s4, id, Succeeded(n, TargetMin, TargetMax, name, path, SampleUrls(items)))
  }

  /** The percent a poller sees can go back: after an accepted request
      with an exclusion upload the task stands at 5%, and the worker's
      first write puts it at 1%. */
  lemma {:induction false} StartAfterUploadGoesBack(store: ProgressStore, id: TaskId, req: Request)
    requires UsesUpload(req.upload) && req.body.Form? && Strip(req.body.formChannel.GetOr("")) != ""
    ensures HandleScrape(store, id, req).1.Accepted?
    ensures var accepted := HandleScrape(store, id, req).0;
      && accepted[id].snapshot.percent == 5
      && UpdateProgress(accepted, id, StartSnapshot)[id].snapshot.percent == 1
  {
  }

  /** A successful run leaves the task completed at 100% with both counts
      equal to the number of items, and the success payload attached. */
  lemma {:induction false} WorkerSuccess(store: ProgressStore, id: TaskId, updates: seq<Snapshot>, items: seq<Item>, name: string, path: string)
    requires items != []
    ensures var slot := RunWorker(store, id, updates, Listed(items), SavedAs(name, path))[id];
      && slot.snapshot.stage == Completed && slot.snapshot.percent == 100
      && slot.snapshot.current == |items| && slot.snapshot.total == |items|
      && slot.result.Some? && slot.result.value.Succeeded?
      && slot.result.value.count == |items| && slot.result.value.filename == name
      && |slot.result.value.urls| <= SampleSize
      && forall i :: 0 <= i < |slot.result.value.urls| ==> slot.result.value.urls[i] == items[i].url
  {
  }

  /** A run whose listing or saving raised ends in the error stage at 0%
      with the failure payload; an empty listing ends there with no payload. */
  lemma {:induction false} WorkerFailure(store: ProgressStore, id: TaskId, updates: seq<Snapshot>, outcome: Outcome, saved: Saved)
    requires outcome.Raised? || outcome.items == [] || saved.SaveRaised?
    ensures var slot := RunWorker(store, id, updates, outcome, saved)[id];
      && slot.snapshot.stage == Error && slot.snapshot.percent == 0
      && slot.snapshot.current == 0 && slot.snapshot.total == 0
      && (outcome.Listed? && outcome.items == [] ==> slot.result.None?)
      && (outcome.Raised? ==> slot.result == Some(Failed(outcome.error)))
      && (outcome.Listed? && outcome.items != [] && saved.SaveRaised? ==> slot.result == Some(Failed(saved.error)))
  {
  }
}

=== FILE: text.dfy ===
/** String helpers with the semantics of the Python string operations the
    scraper and the web layer use (`in`, `endswith`, `rstrip`, `strip`,
    `lower`), plus a leftmost scan that stands in for `re.search`. */
module Text {
  import opened Values

  /** `t` occurs in `s` starting exactly at index `i`. */
  predicate OccursAt(s: string, t: string, i: nat) {
    i + |t| <= |s| && s[i..i + |t|] == t
  }

  /** `t in s` for strings: `t` occurs somewhere in `s`. */
  predicate Contains(s: string, t: string) {
    exists i: nat :: i <= |s| && OccursAt(s, t, i)
  }

  /** `s.endswith(t)`. */
  predicate EndsWith(s: string, t: string) {
    |t| <= |s| && s[|s| - |t|..] == t
  }

  lemma OccursAtContains(s: string, t: string, i: nat)
    requires OccursAt(s, t, i)
    ensures Contains(s, t)
  {
  }

  lemma EndsWithContains(s: string, t: string)
    ensures EndsWith(s, t) ==> Contains(s, t)
  {
    if EndsWith(s, t) {
      OccursAtContains(s, t, |s| - |t|);
    }
  }

  /** A string always contains its own suffix. */
  lemma ContainsSuffix(a: string, t: string)
    ensures Contains(a + t, t)
  {
    OccursAtContains(a + t, t, |a|);
  }

  /** `s.rstrip(c)`: drops every trailing `c`. */
  function RStrip(s: string, c: char): (r: string)
    ensures |r| <= |s| && r == s[..|r|]
    ensures |r| > 0 ==> r[|r| - 1] != c
    ensures forall k :: |r| <= k < |s| ==> s[k] == c
  {
    if |s| > 0 && s[|s| - 1] == c then RStrip(s[..|s| - 1], c) else s
  }

  /** The characters Python's `str.strip()` removes (those for which
      `str.isspace()` holds). */
  predicate IsSpace(c: char) {
    || c == ' ' || '\t' <= c <= '\r' || '\U{1C}' <= c <= '\U{1F}'
    || c == '\U{85}' || c == '\U{A0}' || c == '\U{1680}' || '\U{2000}' <= c <= '\U{200A}'
    || c == '\U{2028}' || c == '\U{2029}' || c == '\U{202F}' || c == '\U{205F}' || c == '\U{3000}'
  }

  function StripLeft(s: string): (r: string)
    ensures |r| <= |s| && r == s[|s| - |r|..]
    ensures |r| > 0 ==> !IsSpace(r[0])
    ensures forall k :: 0 <= k < |s| - |r| ==> IsSpace(s[k])
  {
    if |s| > 0 && IsSpace(s[0]) then StripLeft(s[1..]) else s
  }

  function StripRight(s: string): (r: string)
    ensures |r| <= |s| && r == s[..|r|]
    ensures |r| > 0 ==> !IsSpace(r[|r| - 1])
    ensures forall k :: |r| <= k < |s| ==> IsSpace(s[k])
  {
    if |s| > 0 && IsSpace(s[|s| - 1]) then StripRight(s[..|s| - 1]) else s
  }

  /** `s.strip()`: the result is `s` with its leading and trailing
      whitespace removed, so it is empty exactly when `s` is all whitespace. */
  function Strip(s: string): (r: string)
    ensures |r| <= |s|
    ensures r == "" <==> forall k :: 0 <= k < |s| ==> IsSpace(s[k])
    ensures r != "" ==> !IsSpace(r[0]) && !IsSpace(r[|r| - 1])
    ensures LeadingSpace(s) + |r| <= |s| && r == s[LeadingSpace(s)..LeadingSpace(s) + |r|]
    ensures forall k :: LeadingSpace(s) + |r| <= k < |s| ==> IsSpace(s[k])
  {
    var l := StripLeft(s);
    var r := StripRight(l);
    SliceOfSuffix(s, l, r);
    SpaceAfterSlice(s, l, r);
    EmptyWhenAllSpace(s, l, r);
    r
  }

  /** A prefix `r` of a suffix `l` of `s` is the slice of `s` that starts
      where `l` does. */
  lemma SliceOfSuffix(s: string, l: string, r: string)
    requires |l| <= |s| && l == s[|s| - |l|..]
    requires |r| <= |l| && r == l[..|r|]
    ensures |s| - |l| + |r| <= |s| && r == s[|s| - |l|..|s| - |l| + |r|]
  {
  }

  /** Whitespace after the prefix `r` of the suffix `l` is whitespace in `s`. */
  lemma SpaceAfterSlice(s: string, l: string, r: string)
    requires |l| <= |s| && l == s[|s| - |l|..]
    requires |r| <= |l| && forall k :: |r| <= k < |l| ==> IsSpace(l[k])
    ensures forall k :: |s| - |l| + |r| <= k < |s| ==> IsSpace(s[k])
  {
    var a := |s| - |l|;
    forall k | a + |r| <= k < |s| ensures IsSpace(s[k]) {
      assert s[k] == l[k - a];
    }
  }

  /** Stripping both ends leaves nothing exactly when every character is
      whitespace. */
  lemma EmptyWhenAllSpace(s: string, l: string, r: string)
    requires |l| <= |s| && l == s[|s| - |l|..]
    requires |l| > 0 ==> !IsSpace(l[0])
    requires forall k :: 0 <= k < |s| - |l| ==> IsSpace(s[k])
    requires |r| <= |l| && forall k :: |r| <= k < |l| ==> IsSpace(l[k])
    ensures r == "" <==> forall k :: 0 <= k < |s| ==> IsSpace(s[k])
  {
    if r == "" {
      SpaceAfterSlice(s, l, r);
    } else {
      assert l[0] == s[|s| - |l|];
    }
  }

  /** The number of whitespace characters `s.strip()` removes at the front. */
  function LeadingSpace(s: string): (n: nat)
    ensures n <= |s|
    ensures forall k :: 0 <= k < n ==> IsSpace(s[k])
    ensures n < |s| ==> !IsSpace(s[n])
  {
    |s| - |StripLeft(s)|
  }

  /** ASCII lower-casing of one character. */
  function LowerChar(c: char): char {
    if 'A' <= c <= 'Z' then c - 'A' + 'a' else c
  }

  /** `s.lower()`, restricted to the ASCII letters. */
  function Lower(s: string): (r: string)
    ensures |r| == |s|
    ensures forall k {:trigger r[k]} :: 0 <= k < |s| ==> r[k] == LowerChar(s[k])
  {
    seq(|s|, k requires 0 <= k < |s| => LowerChar(s[k]))
  }

  /** The longest prefix of `s` without the character `c`: the text a
      greedy `[^c]+` group captures when it starts at the front of `s`. */
  function TakeUntil(s: string, c: char): (r: string)
    ensures |r| <= |s| && r == s[..|r|]
    ensures c !in r
    ensures |r| == |s| || s[|r|] == c
  {
    if |s| == 0 || s[0] == c then "" else [s[0]] + TakeUntil(s[1..], c)
  }

  /** The least index `i >= from` at which `matchAt(s, i)` holds: the
      leftmost-match rule of a regular-expression search. */
  function Leftmost<T>(s: seq<T>, from: nat, matchAt: (seq<T>, nat) -> bool): (r: Option<nat>)
    decreases |s| - from
    ensures r.Some? ==> from <= r.value < |s| && matchAt(s, r.value)
    ensures r.Some? ==> forall j :: from <= j < r.value ==> !matchAt(s, j)
    ensures r.None? <==> forall j :: from <= j < |s| ==> !matchAt(s, j)
  {
    if from >= |s| then None
    else if matchAt(s, from) then Some(from)
    else Leftmost(s, from + 1, matchAt)
  }

  /** `i` is the least index at which `matchAt` holds. */
  predicate FirstMatch<T>(s: seq<T>, i: nat, matchAt: (seq<T>, nat) -> bool) {
    i < |s| && matchAt(s, i) && forall j :: 0 <= j < i ==> !matchAt(s, j)
  }

  /** The leftmost scan finds exactly the least matching index. */
  lemma LeftmostIsLeast<T>(s: seq<T>, matchAt: (seq<T>, nat) -> bool, i: nat)
    requires i < |s| && matchAt(s, i)
    requires forall j :: 0 <= j < i ==> !matchAt(s, j)
    ensures Leftmost(s, 0, matchAt) == Some(i)
  {
  }
}

=== FILE: values.dfy ===
/** Small value types shared by every module of the model. */
module Values {

  /** The conventional optional value. */
  datatype Option<+T> = None | Some(value: T) {

    /** The wrapped value, or `default` when there is none. */
    function GetOr(default: T): T {
      match this
      case Some(v) => v
      case None => default
    }
  }

  /** What a dictionary lookup `d.get(key)` can see: the key is missing,
      the key is present with a null value, or the key holds a value. */
  datatype Field<+T> = Absent | Null | Given(value: T) {

    /** `d.get(key)`: missing keys and null values both read as nothing. */
    function Get(): Option<T> {
      match this
      case Given(v) => Some(v)
      case _ => None
    }

    /** `d.get(key, default)`: only a missing key falls back to `default`,
        a null value is returned as null. */
    function GetWithDefault(default: T): Option<T> {
      match this
      case Absent => Some(default)
      case Null => None
      case Given(v) => Some(v)
    }
  }

  /** Truthiness of a string-valued lookup: present and non-empty. */
  predicate TruthyText(f: Field<string>) {
    f.Given? && f.value != ""
  }
}

=== FILE: video_ids.dfy ===
/** Video ids: the 11-character platform token, the watch URL built from
    it, and its extraction from a URL (`_extract_video_id_from_url`). */
module VideoIds {
  import opened Values
  import opened Text

  /** The width of a platform video id. */
  const IdLength: nat := 11

  /** The host and path every watch URL starts with. */
  const WatchPrefix: string := "https://www.youtube.com/watch?v="

  /** A character of the class `[a-zA-Z0-9_-]`. */
  predicate IsIdChar(c: char) {
    'a' <= c <= 'z' || 'A' <= c <= 'Z' || '0' <= c <= '9' || c == '_' || c == '-'
  }

  /** Exactly eleven id characters. */
  predicate IsVideoId(s: string) {
    |s| == IdLength && forall k :: 0 <= k < |s| ==> IsIdChar(s[k])
  }

  /** Eleven id characters occur in `s` from index `j` on. */
  predicate IdAt(s: string, j: nat) {
    j + IdLength <= |s| && IsVideoId(s[j..j + IdLength])
  }

  /** The watch URL the scraper builds from an id. */
  function WatchUrl(id: string): (r: string)
    ensures |r| == |WatchPrefix| + |id|
    ensures r[..|WatchPrefix|] == WatchPrefix && r[|WatchPrefix|..] == id
  {
    WatchPrefix + id
  }

  /** Where the group of `(?:watch\?v=|/)([a-zA-Z0-9_-]{11})` starts when
      the pattern matches at `i`; "watch?v=" is tried before "/". */
  function GroupStart(s: string, i: nat): (r: Option<nat>)
    ensures r.Some? ==> IdAt(s, r.value)
    ensures r.Some? ==> (OccursAt(s, "watch?v=", i) && r.value == i + 8) || (OccursAt(s, "/", i) && r.value == i + 1)
    ensures r.None? ==> !IdAt(s, i + 1) || !OccursAt(s, "/", i)
  {
    if OccursAt(s, "watch?v=", i) && IdAt(s, i + 8) then Some(i + 8)
    else if OccursAt(s, "/", i) && IdAt(s, i + 1) then Some(i + 1)
    else None
  }

  predicate IdMatchAt(s: string, i: nat) {
    GroupStart(s, i).Some?
  }

  /** The id in a URL: the eleven characters of the leftmost match of the
      pattern; nothing for an empty URL or a URL without a match. */
  function ExtractVideoId(url: string): (r: Option<string>)
    ensures url == "" ==> r == None
    ensures r.Some? ==> IsVideoId(r.value)
    ensures r.None? <==> forall i :: 0 <= i < |url| ==> !IdMatchAt(url, i)
    ensures r.Some? ==> forall i: nat :: FirstMatch(url, i, IdMatchAt) ==>
      var g := GroupStart(url, i).value; r.value == url[g..g + IdLength]
  {
    if url == "" then None
    else
      match Leftmost(url, 0, IdMatchAt)
      case Some(i) =>
        var g := GroupStart(url, i).value;
        assert forall i': nat :: FirstMatch(url, i', IdMatchAt) ==> i' == i;
        Some(url[g..g + IdLength])
      case None => None
  }

  /** No match of the id pattern starts inside the fixed watch-URL prefix
      "https://www.youtube.com/", so the first match is at "watch?v=". */
  lemma {:induction false} NoMatchBeforeWatch(id: string, j: nat)
    requires j < 24
    ensures !IdMatchAt(WatchUrl(id), j)
  {
    var s := WatchUrl(id);
    NoWatchInPrefix(s, j);
    NoIdInPrefix(s, j);
  }

  /** "watch?v=" needs a '?' five characters in, and the first '?' of the
      prefix is at 29. */
  lemma NoWatchInPrefix(s: string, j: nat)
    requires j < 24 && |s| >= |WatchPrefix| && s[..|WatchPrefix|] == WatchPrefix
    ensures !OccursAt(s, "watch?v=", j)
  {
    assert s[j + 5] == WatchPrefix[j + 5];
    assert s[j..j + 8][5] == s[j + 5];
  }

  /** Every eleven-character window starting before 25 holds a ':', '/',
      '.' or '?'. */
  lemma NoIdInPrefix(s: string, j: nat)
    requires j < 24 && |s| >= |WatchPrefix| && s[..|WatchPrefix|] == WatchPrefix
    ensures !IdAt(s, j + 1)
  {
    var a := j + 1;
    var b := if a <= 5 then 5 else if a <= 7 then 7 else if a <= 11 then 11
             else if a <= 19 then 19 else if a <= 23 then 23 else 29;
    assert s[b] == WatchPrefix[b];
    assert !IsIdChar(s[b]);
    if a + IdLength <= |s| {
      assert s[a..a + IdLength][b - a] == s[b];
    }
  }

  /** Extraction recovers the id from the watch URL built from it: an id
      written out as a URL is read back by the exclusion loader. */
  lemma {:induction false} WatchUrlRoundTrip(id: string)
    requires IsVideoId(id)
    ensures ExtractVideoId(WatchUrl(id)) == Some(id)
  {
    var s := WatchUrl(id);
    assert s[24..32] == "watch?v=";
    assert s[32..32 + IdLength] == id;
    assert OccursAt(s, "watch?v=", 24) && IdAt(s, 32);
    assert IdMatchAt(s, 24);
    forall j: nat | j < 24 ensures !IdMatchAt(s, j) {
      NoMatchBeforeWatch(id, j);
    }
    LeftmostIsLeast(s, IdMatchAt, 24);
  }
}

=== FILE: walk.dfy ===
/** The entry walk of `scrape_channel` as a pure left fold over the backend
    slots already cut to the maximum count: it keeps items in order and
    emits the interpolated `extracting` progress events. */
module Walk {
  import opened Values
  import opened Entries
  import opened Progress

  /** What stays fixed during a walk: the number of slots to process, the
      exclusion set, whether dates are wanted, and the date conversions. */
  datatype Context = Context(total: nat, exclusion: set<string>, includeDate: bool, codec: DateCodec)

  /** The walk's running state: non-null entries processed so far, the
      items kept, and the events emitted. */
  datatype State = State(processed: nat, items: seq<Item>, events: seq<Event>)

  const Start: State := State(0, [], [])

  /** One iteration of the loop. A null slot changes nothing; any other
      slot advances the processed count and the percent, and, when it is
      kept, appends its item and possibly an event. */
  function Step(w: State, slot: Option<Entry>, ctx: Context): (r: State)
    requires 0 < ctx.total && w.processed < ctx.total
    ensures r.processed == w.processed + (if slot.Some? then 1 else 0)
    ensures r.items == w.items + Keep(slot, ctx.exclusion, ctx.includeDate, ctx.codec)
  {
    match slot
    case None => w
    case Some(e) =>
      var processed := w.processed + 1;
      var percent := WalkPercent(processed, ctx.total);
      var kept := Keep(slot, ctx.exclusion, ctx.includeDate, ctx.codec);
      var items := w.items + kept;
      var events :=
        if kept != [] && ShouldEmit(|items|, ctx.total)
        then w.events + [Event(Extracting, percent, |items|, ctx.total)]
        else w.events;
      State(processed, items, events)
  }

  /** The walk over the slots, first to last. */
  function WalkOver(slots: seq<Option<Entry>>, ctx: Context): (w: State)
    requires 0 < ctx.total && |slots| <= ctx.total
    ensures w.processed <= |slots|
    ensures |w.items| <= w.processed
  {
    if slots == [] then Start
    else Step(WalkOver(slots[..|slots| - 1], ctx), slots[|slots| - 1], ctx)
  }

  /** The reference definition of the kept items: each slot in order
      contributes its item, if it is kept. */
  function Accepted(slots: seq<Option<Entry>>, ctx: Context): seq<Item> {
    if slots == [] then []
    else Keep(slots[0], ctx.exclusion, ctx.includeDate, ctx.codec) + Accepted(slots[1..], ctx)
  }

  lemma {:induction false} AcceptedAppend(slots: seq<Option<Entry>>, slot: Option<Entry>, ctx: Context)
    ensures Accepted(slots + [slot], ctx) == Accepted(slots, ctx) + Keep(slot, ctx.exclusion, ctx.includeDate, ctx.codec)
  {
    if slots == [] {
      assert [slot][1..] == [];
    } else {
      assert (slots + [slot])[1..] == slots[1..] + [slot];
      AcceptedAppend(slots[1..], slot, ctx);
    }
  }

  lemma {:induction false} AcceptedConcat(a: seq<Option<Entry>>, b: seq<Option<Entry>>, ctx: Context)
    ensures Accepted(a + b, ctx) == Accepted(a, ctx) + Accepted(b, ctx)
  {
    if a == [] {
      assert a + b == b;
    } else {
      assert (a + b)[1..] == a[1..] + b;
      AcceptedConcat(a[1..], b, ctx);
    }
  }

  /** The walk keeps exactly the accepted items, in input order. */
  lemma {:induction false} WalkItemsAreAccepted(slots: seq<Option<Entry>>, ctx: Context)
    requires 0 < ctx.total && |slots| <= ctx.total
    ensures WalkOver(slots, ctx).items == Accepted(slots, ctx)
  {
    if slots != [] {
      var init := slots[..|slots| - 1];
      WalkItemsAreAccepted(init, ctx);
      assert slots == init + [slots[|slots| - 1]];
      AcceptedAppend(init, slots[|slots| - 1], ctx);
    }
  }

  /** The accepted items all have the shape the date flag asks for. */
  lemma {:induction false} AcceptedShape(slots: seq<Option<Entry>>, ctx: Context)
    ensures forall i :: 0 <= i < |Accepted(slots, ctx)| ==> (Accepted(slots, ctx)[i].Dated? <==> ctx.includeDate)
    ensures Uniform(Accepted(slots, ctx))
  {
    if slots != [] {
      AcceptedShape(slots[1..], ctx);
      var k := Keep(slots[0], ctx.exclusion, ctx.includeDate, ctx.codec);
      var a := Accepted(slots, ctx);
      assert a == k + Accepted(slots[1..], ctx);
      forall i | 0 <= i < |a| ensures a[i].Dated? <==> ctx.includeDate {
        if i >= |k| {
          assert a[i] == Accepted(slots[1..], ctx)[i - |k|];
        }
      }
    }
  }

  /** The slots that the exclusion set removes dropped from the input. */
  function DropExcluded(slots: seq<Option<Entry>>, exclusion: set<string>): (r: seq<Option<Entry>>)
    ensures |r| <= |slots|
  {
    if slots == [] then []
    else
      (if slots[0].Some? && Excluded(slots[0].value, exclusion) then [] else [slots[0]])
      + DropExcluded(slots[1..], exclusion)
  }

  /** De-duplication removes exactly the entries whose non-empty `id` is
      in the exclusion set and nothing else: walking with the set is
      walking, without any set, over the input with those entries dropped. */
  lemma {:induction false} ExclusionDropsOnlyExcluded(slots: seq<Option<Entry>>, ctx: Context)
    ensures Accepted(slots, ctx) == Accepted(DropExcluded(slots, ctx.exclusion), ctx.(exclusion := {}))
  {
    if slots != [] {
      var ctx0 := ctx.(exclusion := {});
      var head := if slots[0].Some? && Excluded(slots[0].value, ctx.exclusion) then [] else [slots[0]];
      ExclusionDropsOnlyExcluded(slots[1..], ctx);
      AcceptedConcat(head, DropExcluded(slots[1..], ctx.exclusion), ctx0);
      if head != [] {
        assert head[1..] == [];
      }
    }
  }

  /** The shape of every walk event: stage `extracting`, the walk's total,
      a current count between 1 and the items kept so far, and a percent
      between 30 and the percent of the entries processed so far. */
  ghost predicate EventsBounded(w: State, ctx: Context)
    requires 0 < ctx.total && w.processed <= ctx.total
  {
    forall i :: 0 <= i < |w.events| ==>
      && w.events[i].stage == Extracting
      && w.events[i].total == ctx.total
      && 1 <= w.events[i].current <= |w.items|
      && WalkBase <= w.events[i].percent <= WalkPercent(w.processed, ctx.total)
  }

  /** Later events report strictly larger counts and no smaller percent. */
  ghost predicate EventsOrdered(es: seq<Event>) {
    forall i, j :: 0 <= i < j < |es| ==> es[i].current < es[j].current && es[i].percent <= es[j].percent
  }

  /** An event is emitted for the `n`-th kept item exactly when the
      emission rule holds for `n`. */
  ghost predicate EmitsExactly(w: State, ctx: Context) {
    EmitsFor(w.events, |w.items|, ctx.total)
  }

  ghost predicate EmitsFor(es: seq<Event>, kept: nat, total: nat) {
    forall n :: 1 <= n <= kept ==>
      (ShouldEmit(n, total) <==> exists i :: 0 <= i < |es| && es[i].current == n)
  }

  /** Appending the event for a newly kept item, exactly when the rule
      asks for one, keeps the emission rule exact. */
  lemma {:induction false} AppendKeepsEmits(es: seq<Event>, kept: nat, extra: seq<Event>, kept': nat, total: nat)
    requires EmitsFor(es, kept, total)
    requires forall i :: 0 <= i < |es| ==> 1 <= es[i].current <= kept
    requires kept' == kept || kept' == kept + 1
    requires kept' == kept ==> extra == []
    requires kept' == kept + 1 ==> (extra != [] <==> ShouldEmit(kept', total))
    requires extra == [] || (|extra| == 1 && extra[0].current == kept')
    ensures EmitsFor(es + extra, kept', total)
  {
    var r := es + extra;
    forall n | 1 <= n <= kept'
      ensures ShouldEmit(n, total) <==> exists i :: 0 <= i < |r| && r[i].current == n
    {
      if n <= kept {
        if exists i :: 0 <= i < |r| && r[i].current == n {
          var i :| 0 <= i < |r| && r[i].current == n;
          assert es[i].current == n;
        }
        if ShouldEmit(n, total) {
          var i :| 0 <= i < |es| && es[i].current == n;
          assert r[i] == es[i];
        }
      } else {
        if extra != [] {
          assert r[|es|] == extra[0];
        }
        if exists i :: 0 <= i < |r| && r[i].current == n {
          var i :| 0 <= i < |r| && r[i].current == n;
          assert i == |es|;
        }
      }
    }
  }

  /** The events one step appends: at most one, for the item it kept. */
  function StepEvents(w: State, slot: Option<Entry>, ctx: Context): seq<Event>
    requires 0 < ctx.total && w.processed < ctx.total
  {
    var n := |w.items| + 1;
    if slot.Some? && Keep(slot, ctx.exclusion, ctx.includeDate, ctx.codec) != [] && ShouldEmit(n, ctx.total)
    then [Event(Extracting, WalkPercent(w.processed + 1, ctx.total), n, ctx.total)]
    else []
  }

  lemma StepAppendsStepEvents(w: State, slot: Option<Entry>, ctx: Context)
    requires 0 < ctx.total && w.processed < ctx.total
    ensures Step(w, slot, ctx).events == w.events + StepEvents(w, slot, ctx)
  {
  }

  lemma {:induction false} StepKeepsBounded(w: State, slot: Option<Entry>, ctx: Context)
    requires 0 < ctx.total && w.processed < ctx.total
    requires EventsBounded(w, ctx)
    ensures EventsBounded(Step(w, slot, ctx), ctx)
  {
    var r := Step(w, slot, ctx);
    StepAppendsStepEvents(w, slot, ctx);
    WalkPercentMonotone(w.processed, r.processed, ctx.total);
  }

  lemma {:induction false} StepKeepsOrdered(w: State, slot: Option<Entry>, ctx: Context)
    requires 0 < ctx.total && w.processed < ctx.total
    requires EventsBounded(w, ctx) && EventsOrdered(w.events)
    ensures EventsOrdered(Step(w, slot, ctx).events)
  {
    var r := Step(w, slot, ctx);
    StepAppendsStepEvents(w, slot, ctx);
    WalkPercentMonotone(w.processed, w.processed + 1, ctx.total);
  }

  lemma {:induction false} StepKeepsEmits(w: State, slot: Option<Entry>, ctx: Context)
    requires 0 < ctx.total && w.processed < ctx.total
    requires EventsBounded(w, ctx) && EmitsExactly(w, ctx)
    ensures EmitsExactly(Step(w, slot, ctx), ctx)
  {
    var r := Step(w, slot, ctx);
    StepAppendsStepEvents(w, slot, ctx);
    AppendKeepsEmits(w.events, |w.items|, StepEvents(w, slot, ctx), |r.items|, ctx.total);
  }

  /** The walk's events are well-shaped, ordered, and emitted exactly
      according to the emission rule. */
  lemma {:induction false} WalkEventInvariants(slots: seq<Option<Entry>>, ctx: Context)
    requires 0 < ctx.total && |slots| <= ctx.total
    ensures EventsBounded(WalkOver(slots, ctx), ctx)
    ensures EventsOrdered(WalkOver(slots, ctx).events)
    ensures EmitsExactly(WalkOver(slots, ctx), ctx)
  {
    if slots != [] {
      var init := slots[..|slots| - 1];
      WalkEventInvariants(init, ctx);
      var w := WalkOver(init, ctx);
      StepKeepsBounded(w, slots[|slots| - 1], ctx);
      StepKeepsOrdered(w, slots[|slots| - 1], ctx);
      StepKeepsEmits(w, slots[|slots| - 1], ctx);
    }
  }
}
